=== FILE: README.md ===
# A verified model of a position-sharing game's network core

The system is a small client/server game. Every client moves a dot in a 2D
arena and sees the dots of the other clients. Clients and server talk over
TCP with a home-made framing: a `'\n'` start character, the message length
as eight zero-padded decimal digits, then the message. The messages are JSON.

- A client sends its own player record (`x`, `y`, `id`, `in_game`) whenever
  it moves.
- The server keeps a registry `PLAYERS` from player id to connection entry.
  After every change it sends the whole roster `{"players": [...]}` to the
  connections registered in `PLAYERS`, in order, up to the first send that
  fails.
- The client replaces its local mirror of all players, its own record
  included, with every roster it receives. Only drawing skips its own id.

The model has one Dafny module per concern:

| file | module | models |
|---|---|---|
| `framing.dfy` | `Framing` | `send_msg` / `receive_msg` of `pysockets.py`, over a stream of characters |
| `address.dfy` | `Address` | `is_valid_address` of `pysockets.py` |
| `player.dfy` | `Players` | the player record, its colour, and the wire record codec |
| `server.dfy` | `Server` | the `PLAYERS` registry (a class updated in place), the connection handler, the roster document, the broadcast, the bind-port scan |
| `game.dfy` | `Game` | the `GuiGame` client (a class): moves, the remote-dot filter, the roster mirror, the in-game flag transitions |
| `protocol.dfy` | `Protocol` | both ends together: the roster the server sends decodes, on the client, to exactly the registry's players |
| `digits.dfy`, `json.dfy`, `wrappers.dfy` | `Digits`, `Json`, `Wrappers` | decimal text, decoded JSON values, `Option` / `Result` |

How the source's behaviour is represented:

- A socket is the sequence of characters it will deliver. The end of that
  sequence stands for the peer resetting the connection.
- `json.loads` is a parameter `parse: string -> Option<Value>`. `None` means
  `JSONDecodeError`.
- The Mersenne Twister behind `get_color` is a parameter `rng`. It is any
  function from the seed into the palette's indices.
- A random default position is a nondeterministic choice within the range
  `randint` draws from.
- The clock is the parameter `now`. Send and connect failures are oracles:
  `sendOk`, `reachable`, and the set `fails` of connections whose send
  raises.
- Exceptions the source does not catch (`ValueError` from a bad length header,
  `KeyError` and `TypeError` from a bad record) end the thread. They are the
  status `Crashed` on the server and the read `Broken` on the client.

Where the code's behaviour may surprise a reader, the model follows the code:

- `send_msg` has no size check. A message of 10^8 characters or more gets a
  longer header and can never be received back whole
  (`Framing.OversizedMessageIsLost`).
- A record with a missing field raises `KeyError`. Nothing catches it, so the
  handler thread ends; it does not skip to the next frame.
- `broadcast_player_info` wraps its whole send loop in one `try`. The first
  reset or aborted send stops delivery to every later connection
  (`Server.Delivered`).
- The roster never holds a player out of game only while each client keeps
  one id, in the reads its handler handles. That is the premise of
  `Server.Registry.ReadDataThreadFunction`'s postcondition
  `old(Consistent()) && OneId(...) ==> Consistent()`.

## Model

| member | source | states |
|---|---|---|
| Framing.Header | pysockets.py:21 | `{n:08d}` is decimal digits with value `n`. It is exactly 8 characters iff `n < 10^8`, and never shorter. |
| Framing.Frame | pysockets.py:20-22 | A frame starts with `'\n'` and ends with the message. Its length is `len(message) + 9` iff the message is shorter than 10^8 characters, and then the 8 header digits denote `len(message)`. |
| Framing.ReadFramed | pysockets.py:37 | A read after the start character succeeds exactly when 8 digits and at least that many further characters are there. The message is then exactly as long as the header says, followed by the rest. A non-digit header is `BadLength`, and only that. |
| Framing.Receive | pysockets.py:33-37 | A received message is shorter than 10^8 characters, and the message plus the unread rest leave at least a start character and a header of the input consumed. |
| Framing.ReceiveTakesFromStream | pysockets.py:33-37 | The received message and the unread rest are, in that order, the end of the input stream. |
| Framing.ReceiveMsg | pysockets.py:33-37 | The character-by-character loop returns exactly what `Receive` specifies, including its failures (`Closed`, `BadLength`). |
| Framing.SkipsToStartByte | pysockets.py:33-35 | Every character before the first `'\n'` is discarded, and that `'\n'` is consumed. |
| Framing.NoStartByteNoMessage | pysockets.py:33-35 | A stream without `'\n'` yields no message: the read ends as closed. |
| Framing.RoundTrip | pysockets.py:21-37 | Receiving from `junk + Frame(m) + rest`, with no `'\n'` in `junk` and `len(m) < 10^8`, returns `m` and leaves exactly `rest` unread. |
| Framing.FrameRoundTrip | pysockets.py:21-37 | A frame at the start of the stream yields its message and leaves exactly the rest. |
| Framing.FramesDecodeInOrder | pysockets.py:21-37 | Consecutive frames followed by text without `'\n'` decode to exactly the messages sent, in order. |
| Framing.OversizedMessageIsLost | pysockets.py:21 | A message of 10^8 characters or more gets a longer header. Receiving its frame never yields that message, whatever junk precedes it and whatever follows. |
| Address.Split | pysockets.py:49-50 | `str.split` gives at least one part, and no part contains the separator. |
| Address.ParseInt | pysockets.py:56 | `int(s)` succeeds iff `s` is a non-empty string of digits. |
| Address.JoinSplit | pysockets.py:49-50 | Joining the parts of a split restores the text. |
| Address.SplitJoin | pysockets.py:49-50 | Splitting joined separator-free parts gives the parts back. |
| Address.AllOctetsMeans | pysockets.py:66-71 | The octet loop accepts iff every piece is a decimal number in [0,255]. |
| Address.ShapedAddressVerdict | pysockets.py:48-74 | For text `o0.o1.o2.o3:port` with separator-free pieces, the address is valid iff the port is in [0,65535] and every octet is in [0,255]. |
| Address.WellFormedAddressAccepted | pysockets.py:48-74 | Every such address with octets and port in range is accepted. |
| Address.AcceptedAddressWellFormed | pysockets.py:48-74 | Every accepted address is four in-range octets joined by `.`, a `:`, and an in-range port. |
| Address.ExampleAccepted | pysockets.py:48-74 | `"192.168.1.5:10002"` is accepted. |
| Address.ExampleWithoutPortRejected | pysockets.py:49-52 | `"192.168.1.5"` (no colon) is rejected. |
| Address.ExampleOctetTooLargeRejected | pysockets.py:66-69 | `"999.1.1.1:80"` is rejected. |
| Address.ExamplePortTooLargeRejected | pysockets.py:55-57 | `"1.1.1.1:99999"` is rejected. |
| Address.ExampleEmptyOctetRejected | pysockets.py:67-71 | `"1..1.1:80"` yields False, not an error. |
| Players.GetColor | player.py:16-25 | The colour is always a member of the palette. |
| Players.Build | player.py:72-74 | The built player has the given id, position and status, and the colour of its id. |
| Players.NewPlayer | player.py:53-74 | A supplied coordinate is stored unchanged. An omitted one lies in [DOT_SIZE, CANVAS_SIZE − DOT_SIZE]. The colour is `get_color(id)`, and id and in_game default to 0 and False. |
| Players.AsDict | player.py:82-94 | The wire record has exactly the keys `x`, `y`, `id`, `in_game`, never `color`, holding the player's values. |
| Players.FromDict | player.py:40-48 | Decoding succeeds iff the value is an object with all four fields of the right kind. The result carries those fields and the colour of its id. A missing `id` is the KeyError reported first. |
| Players.FromJson | player.py:29-36 | It succeeds iff the text parses to a wire record. Unparsable text is `JSONDecodeError`. |
| Players.WireRoundTrip | player.py:40-48 | Decoding a player's wire record rebuilds the player exactly. |
| Players.ColorIsNeverSent | player.py:82-94 | Players differing only in colour have the same wire record. The decoded copy carries the colour of its id. |
| Players.MissingFieldFails | player.py:47-48 | A record missing any of the four fields fails to decode, with the `KeyError` of a field that is missing. |
| Server.OnlinePlayer.constructor | server.py:135-144 | A new entry holds its connection and address, and no player data. |
| Server.OnlinePlayer.AsDict | server.py:151-155 | `{}` iff no player data, otherwise the player's wire record. |
| Server.RecordsOfPresent | server.py:67-72 | The roster records are exactly the wire records of the entries with player data, in registry order. |
| Server.Delivered | server.py:122-130 | The connections reached are a prefix of the registry's connections, none of them failing; the next connection, if any, is the first failing one. |
| Server.SendToAll | server.py:126-130 | The send loop reaches exactly `Delivered`: the connections in order up to the first failing send. |
| Server.Upsert | server.py:106 | `PLAYERS[k] = v` keeps an existing key in place. A new key goes last, after the old keys in their order. The keys are the old keys plus `k`, still distinct. |
| Server.Remove | server.py:110 | `del PLAYERS[k]` removes exactly `k` and keeps the other keys distinct. |
| Server.RemoveKeepsOrder | server.py:110 | Deleting the key at position `i` leaves the keys before it and the keys after it, in their order. |
| Server.RemoveAbsent | server.py:110 | Deleting a key that is absent leaves the keys as they were. |
| Server.ClassifyWellFormed | server.py:88-89 | A record the handler decodes is one `Player.from_dict` can produce from a JSON object. |
| Server.Reads | server.py:84-93 | The reads a stream yields, one per frame until framing fails. The sequence is never empty and ends with a read that does not continue the loop; `Server.Stop` finds the first such read. |
| Server.Stop | server.py:84-112 | The position of the read that ends the handler loop: every earlier read continues it, and this one does not. |
| Server.NextPort | server.py:33-35 | The next candidate is `port + 1`, wrapping from 65535 to 0, so it stays in [0,65535]. |
| Server.CandidateIsCyclic | server.py:26-35 | The k-th port tried is `(10002 + k) mod 65536`. |
| Server.CandidateReaches | server.py:26-35 | Every port in [0,65535] is tried within 65536 candidates. |
| Server.BindPort | server.py:26-35 | The scan stops at the first bindable candidate, which is in [0,65535], and every earlier candidate was not bindable. |
| Server.Registry.constructor | server.py:15 | The registry starts empty. |
| Server.Registry.ConsistentRoster | server.py:61-72 | In a consistent registry the roster lists every entry in order, each filed under its own id and in game. |
| Server.Registry.JsonDumpsPlayers | server.py:61-72 | The append loop builds exactly the roster document of the registry's entries with player data, in iteration order. |
| Server.Registry.BroadcastPlayerInfo | server.py:116-130 | One document, the current roster, is sent to exactly the delivered prefix of the registry's connections. |
| Server.Registry.Assign | server.py:106 | The entry under `id` becomes this connection's entry, and every other key is unchanged. A registry consistent apart from `id` becomes consistent when the entry holds an in-game record with that id. Stored records stay decoded records. |
| Server.Registry.Delete | server.py:96 | An absent key is the KeyError: nothing changes. Otherwise exactly that key is removed. A registry consistent apart from the key becomes consistent. Stored records stay decoded records. |
| Server.Registry.HandleRead | server.py:84-112 | One loop pass. A decode error reads again with the registry untouched. An uncaught error ends the thread untouched. An in-game record upserts and broadcasts. An out-of-game record deletes, broadcasts and exits, or crashes if absent. A reset deletes the held id (if any), broadcasts and exits, or crashes with no broadcast if the held id is absent. Consistency is kept while the client keeps one id. Stored records stay decoded records. An exit leaves the held id unregistered. |
| Server.Registry.HandleReset | server.py:93-102 | With no player data: broadcast, registry unchanged, exit. Otherwise the held id is deleted and a broadcast follows, or the KeyError ends the thread. Stored records stay decoded records. |
| Server.Registry.HandlePlayer | server.py:88-112 | The record is stored on the entry. Then it is upserted when in game, and deleted otherwise. Stored records stay decoded records. |
| Server.Registry.JoinGame | server.py:105-107 | `PLAYERS[id]` becomes this entry, other keys unchanged, then a broadcast; reading goes on. |
| Server.Registry.LeaveGame | server.py:108-112 | The id is deleted and a broadcast follows, ending the handler. An absent id is the KeyError, which ends the thread with no broadcast. |
| Server.Registry.ReadOnce | server.py:88-112 | One received frame decoded and handled. The read is the first of `Reads`, and reading on continues with the rest of `Reads`. The registry, status and broadcast are the read's full `Outcome`, as for `HandleRead`. Every key but the one the read touches keeps its entry. Stored records stay decoded records. An exit leaves the held id unregistered. |
| Server.Registry.OutcomeFrame | server.py:84-112 | Any read's outcome changes the registry at most under the key it touches: the record's id, or the held id on a reset. |
| Server.Registry.ReadDataThreadFunction | server.py:76-112 | The handler handles exactly the reads up to and including the first one that ends its loop. Its entry holds the last record received. A consistent registry stays consistent when the client keeps one id in the reads handled. Stored records stay decoded records. An exit leaves the held id unregistered. The entry of every id that is neither the held one nor one of the handled records' is as it was. |
| Server.Registry.ReadLoop | server.py:84-112 | The `while True` loop keeps its invariant from the first read to the one that ends it. |
| Server.Registry.ReadStep | server.py:84-112 | One pass of the handler's loop, `receive_msg` then `ReadOnce`, keeps the loop's invariant: reads handled so far, the entry's last record, consistency, decoded records, an exit leaving the held id unregistered, and entries kept outside the ids named so far. |
| Server.LastDataNamed | server.py:88 | The record a handler holds is its initial one or one of the records it read. |
| Server.NamedStep | server.py:84-112 | A read that changes only the key it touches keeps the registry unchanged outside the ids named so far. |
| Server.MissingFieldEndsThread | server.py:88-112 | A record missing a field is the uncaught `KeyError`: the read ends the handler's loop and its thread. |
| Server.ReadsAdvance | server.py:84-112 | The read handled at step `n` is `Reads(stream)[n]`, and the loop stops exactly at `Stop`. |
| Server.LastDataPrefix | server.py:88 | After one more read, the entry holds that read's player if it carried one. |
| Server.OneIdStep | server.py:88 | A client that keeps one id still does so after one more read is stored. |
| Game.Step | game.py:127-176 | A move is taken exactly when it keeps the dot inside the arena margin. Only the moved axis's coordinate changes, and a dot inside the arena stays inside. |
| Game.DefaultPositionInArena | game.py:103 | A fresh player's random position lies inside the arena margin. |
| Game.RemoteDotsMembership | game.py:215-224 | The dots drawn are exactly the roster players with another id who are in game. |
| Game.RemoteDotsAppend | game.py:215-224 | The filter keeps roster order: it distributes over concatenation. |
| Game.RemoteDotsLength | game.py:215-224 | No more dots than roster entries, and as many iff every entry qualifies. |
| Game.CollectRemoteDots | game.py:215-224 | The `for ... continue` loop computes exactly the remote-dot filter. |
| Game.DecodeAll | game.py:290-292 | Decoding the roster list succeeds iff every item is a wire record, and then item i decodes to player i. |
| Game.BuildRoster | game.py:290-294 | The `temp_player_list` loop returns exactly `DecodeAll`: the decoded list, or the first decoding error. |
| Game.DecodeRoster | game.py:287-292 | A non-object message is a TypeError, and a missing `players` key is a KeyError. A `players` list decodes exactly as `DecodeAll` decodes its items, one `player_from_dict` per item in order. Decoded players carry the colours of their ids. |
| Game.Session | game.py:284-297 | The receive loop ends at a read that stops it: a reset or an uncaught error. |
| Game.RosterReplacesMirror | game.py:294 | Once a roster arrives, what the mirror held before has no influence: no merge. |
| Game.SessionAfterRoster | game.py:287-294 | A roster read is consumed, and the loop goes on with that roster as the mirror. |
| Game.SessionWithoutFrames | game.py:299-301 | A stream with no further frame ends the loop by the reset, with the mirror unchanged. |
| Game.GuiGame.constructor | game.py:24-66 | Not in game, no player, not connected, empty mirror and dots. |
| Game.GuiGame.ServerConnect | game.py:247-274 | Connected iff already connected, or the address is valid and the connect succeeds. Nothing else changes. |
| Game.GuiGame.Move | game.py:179-199 | The own record is sent only while connected. A failing send is swallowed. Nothing else changes. |
| Game.GuiGame.ArrowKey | game.py:127-176 | Out of game, nothing changes and nothing is sent. In game, the player becomes `Step` of itself, and the record is sent iff the guard allowed the move and the connection is up. The arena invariant is kept. |
| Game.GuiGame.UpdateGameLoop | game.py:202-226 | The dots become exactly the remote-dot filter of the mirror. Nothing else changes. |
| Game.GuiGame.StartGame | game.py:82-124 | It connects if needed. Once connected and not in game, it creates a player with id `now`, in game, and sends it. `in_game` becomes true iff the send succeeded. Otherwise player and flag are unchanged. |
| Game.GuiGame.OnClosing | game.py:229-244 | The player's `in_game` is set false before the final send, and `stop_thread` is set unless that send raised. |
| Game.GuiGame.RestartOnlineService | game.py:313-317 | Disconnected, with an empty mirror. |
| Game.GuiGame.OnlineFunction | game.py:277-305 | While connected and not stopped, it reads until `Session` says the loop ends. A reset leaves the client disconnected with an empty mirror. An uncaught error leaves the last roster mirrored. |
| Protocol.RecordsDecode | server.py:67-72 | The records `json_dumps_players` emits decode, one by one, to the players they came from. |
| Protocol.RosterRoundTrip | server.py:61-72 | The roster document decodes on the client to exactly the registry's players with data, in registry order. |
| Protocol.RegistryRosterDecodes | server.py:61-72 | For a registry whose stored records came from decoding, which the handlers keep, the document broadcast decodes to exactly its players with data. |
| Protocol.RosterFrameStep | game.py:287-294 | One framed roster received: the mirror becomes exactly the registry's players. |
| Protocol.ClientMirrorsLastBroadcast | game.py:284-301 | A client reading a run of framed broadcasts, then a reset, ends with exactly the last broadcast's players mirrored. |

## Left out

- Socket I/O (`sendall`, `recv`, `accept`, `bind`, `connect`) and `get_ip` (pysockets.py:78-94). Streams are character sequences; sends, connects and binds are oracles.
- Short reads. `recv(n)` is taken to return all `n` bytes when the stream holds them, as the code assumes.
- Framing.Receive: characters stand for bytes. `send_msg` counts characters, while `receive_msg` reads bytes and decodes each piece as UTF-8, so the two agree only for ASCII text. A non-ASCII message, or non-ASCII junk before a frame, raises `UnicodeDecodeError` in the source. All traffic is `json.dumps` output (player.py:103, server.py:72), which is ASCII by default.
- Framing.Receive: an exhausted stream is the reset `Closed`. On a closed socket the real `receive_msg` spins forever on empty reads.
- Framing.Receive: `int()` is modelled on plain digit strings. Its leniency towards whitespace, signs, underscores and non-ASCII Unicode decimal digits (such as full-width `"１"`) in the header is not.
- Address.ParseInt: `int()` leniency is likewise not modelled for addresses. So text such as `"１.1.1.1:80"`, with a full-width digit, which `is_valid_address` accepts (pysockets.py:56, 68), is rejected here.
- Threads: one thread per connection, the client's daemon threads, and the unsynchronised shared `PLAYERS`. Handler steps are sequential transitions; the code has no locks to model.
- tkinter: the window, labels, canvas drawing, key bindings, `mainloop`, `after` scheduling, and `time.sleep`. Game.GuiGame.UpdateGameLoop keeps the players that get a dot, not canvas item handles.
- The Mersenne Twister is not modelled; `rng` is an arbitrary function into [0,19]. `get_color`'s determinism holds because `Players.GetColor` is a function of `rng` and `n`, so it has no lemma of its own.
- JSON text: `json.dumps` and `json.loads`. Decoded values are the `Json.Value` datatype, and parsing is the parameter `parse`.
- Json.Value has no null and no floating-point numbers. `json.loads` yields `None` for `null` and a `float` for a number such as `1.5`, and `player_from_dict` (player.py:47-48) would store either in a `Player` unchecked. A `parse` result can only hold integers, booleans, strings, lists and objects, so such records are not modelled.
- The `constants` module is not part of this model. `CANVAS_SIZE_X`, `CANVAS_SIZE_Y`, `DOT_SIZE` and `MOVE_SIZE` are the parameters `Players.Constants`. The `DOT_SIZE/2` comparisons are doubled to stay in integers.
- Players.FromDict: a field of the wrong JSON kind is reported as `TypeError`. Python would store the value and fail later, or not at all.
- Players.NewPlayer and Game.GuiGame.StartGame: the player is a value held in `GuiGame.player`, since no other object holds it.
- Server.Registry.ReadDataThreadFunction: it does not return the list of broadcasts. Each broadcast's document and recipients are stated per read by `Server.Registry.ReadOnce`.
- Players.NewPlayer and Game.GuiGame.StartGame require a non-empty `randint` range for each omitted coordinate (`DOT_SIZE <= CANVAS_SIZE - DOT_SIZE`). Otherwise the source raises `ValueError` (player.py:62, 67), and that error is not modelled.
- Server.BindPort requires at least one bindable port. With none, the source's scan never ends.
- The server's `KeyboardInterrupt` shutdown (server.py:52-57), and the accept loop that starts the handler threads (server.py:40-50).
- Broadcast failures other than reset and abort (other `OSError`s) would end the handler thread. They are not modelled.
- Game.GuiGame.OnlineFunction: the reconnect recursion between `online_function`, `restart_online_service` and `server_connect` is not modelled (game.py:307-320). Nor is `connect_thread.start()`, which raises when called twice. One call models one connection's session; a `RuntimeError` from a second `online_thread.start()` is ignored, as in the source.
- Game.GuiGame.OnlineFunction: an `OSError` other than a reset on the client's read is not modelled separately from the reset.
- Behaviour the code lacks is not added: a payload-size error, isolation of each send in a broadcast, and reconnect backoff.

=== FILE: address.dfy ===
/**
 * `is_valid_address` of pysockets.py: accept `A.B.C.D:PORT` with every octet
 * in [0,255] and the port in [0,65535], and answer False (never raise) for
 * anything else. `int()` is modelled on plain decimal digit strings.
 */
module Address {
  import opened Wrappers
  import opened Digits

  /** `pysockets.PORT`: the server's first candidate port and the client's default. */
  const DefaultPort: nat := 10002

  const MaxPort: nat := 65535
  const MaxOctet: nat := 255

  /** Python's `s.split(sep)`: the pieces between separators, always at least one. */
  function Split(s: string, sep: char): (parts: seq<string>)
    ensures |parts| >= 1
    ensures forall i :: 0 <= i < |parts| ==> sep !in parts[i]
  {
    if s == [] then [[]]
    else
      var rest := Split(s[1..], sep);
      if s[0] == sep then [[]] + rest
      else [[s[0]] + rest[0]] + rest[1..]
  }

  /** `sep.join(parts)`. */
  function Join(parts: seq<string>, sep: char): string
    requires |parts| >= 1
  {
    if |parts| == 1 then parts[0] else parts[0] + [sep] + Join(parts[1..], sep)
  }

  /** `int(s)` on a string of ASCII digits; `None` stands for the ValueError it raises otherwise. */
  function ParseInt(s: string): (r: Option<nat>)
    ensures r.Some? <==> s != [] && AllDigits(s)
  {
    if s != [] && AllDigits(s) then Some(Value(s)) else None
  }

  /** The `for n in ip_split` loop: every piece is an integer in [0,255]. */
  predicate AllOctets(pieces: seq<string>) {
    pieces == [] ||
    (match ParseInt(pieces[0])
     case None => false
     case Some(n) => n <= MaxOctet && AllOctets(pieces[1..]))
  }

  /** `is_valid_address(addr)`, check for check in the order the source makes them. */
  predicate IsValidAddress(addr: string) {
    var parts := Split(addr, ':');
    if |parts| != 2 then false
    else
      var ip, port := parts[0], parts[1];
      var ipSplit := Split(ip, '.');
      match ParseInt(port)
      case None => false
      case Some(p) =>
        if p > MaxPort then false
        else if |ipSplit| != 4 then false
        else AllOctets(ipSplit)
  }

  // ---------------------------------------------------------------------------
  // An independent description of the accepted addresses.

  predicate IsOctet(s: string) {
    s != [] && AllDigits(s) && Value(s) <= MaxOctet
  }

  predicate IsPort(s: string) {
    s != [] && AllDigits(s) && Value(s) <= MaxPort
  }

  /** The text `o0.o1.o2.o3:port`. */
  function AddressText(octets: seq<string>, port: string): string
    requires |octets| == 4
  {
    Join(octets, '.') + [':'] + port
  }

  lemma {:induction false} JoinSplit(s: string, sep: char)
    ensures Join(Split(s, sep), sep) == s
  {
    if s != [] {
      JoinSplit(s[1..], sep);
      var rest := Split(s[1..], sep);
      if s[0] == sep {
        assert Split(s, sep) == [[]] + rest;
        assert ([[]] + rest)[1..] == rest;
      } else if |rest| == 1 {
        assert Join(Split(s, sep), sep) == [s[0]] + rest[0];
      } else {
        var parts := Split(s, sep);
        assert parts[1..] == rest[1..];
        assert Join(rest, sep) == rest[0] + [sep] + Join(rest[1..], sep);
      }
    }
  }

  /** A piece without separators splits into itself. */
  lemma {:induction false} SplitNoSeparator(x: string, sep: char)
    requires sep !in x
    ensures Split(x, sep) == [x]
  {
    if x != [] {
      assert x[0] in x;
      assert forall c :: c in x[1..] ==> c in x;
      SplitNoSeparator(x[1..], sep);
      assert [x[0]] + x[1..] == x;
    }
  }

  /** A separator after a separator-free piece starts a new part. */
  lemma {:induction false} SplitAfterPiece(x: string, sep: char, y: string)
    requires sep !in x
    ensures Split(x + [sep] + y, sep) == [x] + Split(y, sep)
  {
    var s := x + [sep] + y;
    if x == [] {
      assert s == [sep] + y;
      assert s[1..] == y;
    } else {
      assert x[0] in x;
      assert forall c :: c in x[1..] ==> c in x;
      assert s[1..] == x[1..] + [sep] + y;
      SplitAfterPiece(x[1..], sep, y);
      assert [x[0]] + x[1..] == x;
    }
  }

  lemma {:induction false} SplitJoin(parts: seq<string>, sep: char)
    requires |parts| >= 1
    requires forall i :: 0 <= i < |parts| ==> sep !in parts[i]
    ensures Split(Join(parts, sep), sep) == parts
  {
    if |parts| == 1 {
      SplitNoSeparator(parts[0], sep);
    } else {
      SplitJoin(parts[1..], sep);
      SplitAfterPiece(parts[0], sep, Join(parts[1..], sep));
    }
  }

  lemma DigitsHaveNoSeparator(s: string, sep: char)
    requires AllDigits(s) && !IsDigit(sep)
    ensures sep !in s
  {
  }

  lemma {:induction false} AllOctetsMeans(pieces: seq<string>)
    ensures AllOctets(pieces) <==> forall i :: 0 <= i < |pieces| ==> IsOctet(pieces[i])
  {
    if pieces != [] {
      AllOctetsMeans(pieces[1..]);
      assert forall i :: 1 <= i < |pieces| ==> pieces[i] == pieces[1..][i - 1];
    }
  }

  /**
   * For text shaped `o0.o1.o2.o3:port` (pieces free of separators), the verdict
   * is exactly: the port and every octet are decimal numbers in range.
   */
  lemma ShapedAddressVerdict(octets: seq<string>, port: string)
    requires |octets| == 4
    requires forall i :: 0 <= i < 4 ==> '.' !in octets[i] && ':' !in octets[i]
    requires ':' !in port
    ensures IsValidAddress(AddressText(octets, port)) <==>
              IsPort(port) && forall i :: 0 <= i < 4 ==> IsOctet(octets[i])
  {
    var ip := Join(octets, '.');
    IpHasNoColon(octets);
    SplitAfterPiece(ip, ':', port);
    SplitNoSeparator(port, ':');
    SplitJoin(octets, '.');
    AllOctetsMeans(octets);
  }

  /** Every address of the form `o0.o1.o2.o3:port` with octets and port in range is accepted. */
  lemma WellFormedAddressAccepted(octets: seq<string>, port: string)
    requires |octets| == 4
    requires forall i :: 0 <= i < 4 ==> IsOctet(octets[i])
    requires IsPort(port)
    ensures IsValidAddress(AddressText(octets, port))
  {
    forall i | 0 <= i < 4
      ensures '.' !in octets[i] && ':' !in octets[i]
    {
      DigitsHaveNoSeparator(octets[i], '.');
      DigitsHaveNoSeparator(octets[i], ':');
    }
    DigitsHaveNoSeparator(port, ':');
    ShapedAddressVerdict(octets, port);
  }

  lemma {:induction false} IpHasNoColon(octets: seq<string>)
    requires |octets| >= 1
    requires forall i :: 0 <= i < |octets| ==> ':' !in octets[i]
    ensures ':' !in Join(octets, '.')
  {
    if |octets| > 1 {
      IpHasNoColon(octets[1..]);
    }
  }

  /** Every accepted address has that form, so the two descriptions agree. */
  lemma AcceptedAddressWellFormed(addr: string)
    requires IsValidAddress(addr)
    ensures exists octets: seq<string>, port: string ::
              |octets| == 4 &&
              (forall i :: 0 <= i < 4 ==> IsOctet(octets[i])) &&
              IsPort(port) &&
              addr == AddressText(octets, port)
  {
    var parts := Split(addr, ':');
    var octets := Split(parts[0], '.');
    AllOctetsMeans(octets);
    JoinSplit(addr, ':');
    JoinSplit(parts[0], '.');
    assert addr == parts[0] + [':'] + parts[1];
    assert addr == AddressText(octets, parts[1]);
  }

  // ---------------------------------------------------------------------------
  // Example addresses.

  lemma ExampleAccepted()
    ensures IsValidAddress("192.168.1.5:10002")
  {
    ExamplePiecesInRange();
    WellFormedAddressAccepted(["192", "168", "1", "5"], "10002");
    ExampleAcceptedText();
  }

  lemma ExampleAcceptedText()
    ensures AddressText(["192", "168", "1", "5"], "10002") == "192.168.1.5:10002"
  {
  }

  lemma ExamplePiecesInRange()
    ensures IsOctet("192") && IsOctet("168") && IsOctet("1") && IsOctet("5")
    ensures IsPort("10002")
  {
    assert Decimal(192) == "192";
    assert Decimal(168) == "168";
    assert Decimal(10002) == "10002";
  }

  lemma ExampleWithoutPortRejected()
    ensures !IsValidAddress("192.168.1.5")
  {
    SplitNoSeparator("192.168.1.5", ':');
  }

  lemma ExampleOctetTooLargeRejected()
    ensures !IsValidAddress("999.1.1.1:80")
  {
    var octets := ["999", "1", "1", "1"];
    ExampleOctetTooLarge();
    assert !IsOctet(octets[0]);
    ShapedAddressVerdict(octets, "80");
    ExampleOctetTooLargeText();
  }

  lemma ExampleOctetTooLarge()
    ensures !IsOctet("999")
  {
    assert Decimal(999) == "999";
  }

  lemma ExampleOctetTooLargeText()
    ensures AddressText(["999", "1", "1", "1"], "80") == "999.1.1.1:80"
  {
  }

  lemma ExamplePortTooLargeRejected()
    ensures !IsValidAddress("1.1.1.1:99999")
  {
    ExamplePortTooLarge();
    ShapedAddressVerdict(["1", "1", "1", "1"], "99999");
    ExamplePortTooLargeText();
  }

  lemma ExamplePortTooLarge()
    ensures !IsPort("99999")
  {
    assert Decimal(99999) == "99999";
  }

  lemma ExamplePortTooLargeText()
    ensures AddressText(["1", "1", "1", "1"], "99999") == "1.1.1.1:99999"
  {
  }

  /** An empty octet is a ValueError inside the try, so the answer is False, not an exception. */
  lemma ExampleEmptyOctetRejected()
    ensures !IsValidAddress("1..1.1:80")
  {
    ShapedAddressVerdict(["1", "", "1", "1"], "80");
    ExampleEmptyOctetText();
  }

  lemma ExampleEmptyOctetText()
    ensures AddressText(["1", "", "1", "1"], "80") == "1..1.1:80"
  {
  }
}

=== FILE: digits.dfy ===
/**
 * Plain decimal text: Python's `str(n)` for a non-negative `n`, the
 * zero padding of the format spec `08d`, and `int(s)` restricted to strings
 * of ASCII digits.
 */
module Digits {

  predicate IsDigit(c: char) {
    '0' <= c <= '9'
  }

  predicate AllDigits(s: string) {
    forall i :: 0 <= i < |s| ==> IsDigit(s[i])
  }

  function DigitChar(d: nat): (c: char)
    requires d < 10
    ensures IsDigit(c) && c as int - '0' as int == d
  {
    (d + '0' as int) as char
  }

  function DigitValue(c: char): (d: nat)
    requires IsDigit(c)
    ensures d < 10
  {
    c as int - '0' as int
  }

  /** The number a string of decimal digits denotes (leading zeros allowed). */
  function Value(s: string): nat
    requires AllDigits(s)
  {
    if s == [] then 0 else 10 * Value(s[..|s| - 1]) + DigitValue(s[|s| - 1])
  }

  function Pow10(k: nat): (p: nat)
    ensures p >= 1
  {
    if k == 0 then 1 else 10 * Pow10(k - 1)
  }

  /** `str(n)`: the shortest decimal text of `n`, without leading zeros. */
  function Decimal(n: nat): (s: string)
    ensures |s| >= 1 && AllDigits(s) && Value(s) == n
    ensures |s| > 1 ==> s[0] != '0'
    decreases n
  {
    if n < 10 then [DigitChar(n)]
    else
      var prefix := Decimal(n / 10);
      var s := prefix + [DigitChar(n % 10)];
      assert s[..|s| - 1] == prefix;
      s
  }

  function Zeros(k: nat): (z: string)
    ensures |z| == k && AllDigits(z)
    ensures forall i :: 0 <= i < k ==> z[i] == '0'
  {
    if k == 0 then [] else Zeros(k - 1) + ['0']
  }

  /** Left padding with '0' up to `width` characters; longer text is kept whole. */
  function ZeroPad(s: string, width: nat): string {
    if |s| >= width then s else Zeros(width - |s|) + s
  }

  /** A string of k digits denotes a number below 10^k. */
  lemma {:induction false} ValueBelowPow10(s: string)
    requires AllDigits(s)
    ensures Value(s) < Pow10(|s|)
  {
    if s != [] {
      ValueBelowPow10(s[..|s| - 1]);
    }
  }

  /** `str(n)` has at most k digits exactly when n < 10^k. */
  lemma {:induction false} DecimalLength(n: nat, k: nat)
    requires k >= 1
    ensures |Decimal(n)| <= k <==> n < Pow10(k)
    decreases n
  {
    ValueBelowPow10(Decimal(n));
    if n >= 10 {
      if k == 1 {
        assert |Decimal(n)| >= 2;
      } else {
        DecimalLength(n / 10, k - 1);
      }
    }
  }

  /** Leading zeros do not change the value. */
  lemma {:induction false} ValueZerosPrefix(k: nat, s: string)
    requires AllDigits(s)
    ensures AllDigits(Zeros(k) + s) && Value(Zeros(k) + s) == Value(s)
    decreases |s|
  {
    var t := Zeros(k) + s;
    if s == [] {
      assert t == Zeros(k);
      ValueOfZeros(k);
    } else {
      assert t[..|t| - 1] == Zeros(k) + s[..|s| - 1];
      ValueZerosPrefix(k, s[..|s| - 1]);
    }
  }

  lemma {:induction false} ValueOfZeros(k: nat)
    ensures Value(Zeros(k)) == 0
  {
    if k > 0 {
      assert Zeros(k)[..k - 1] == Zeros(k - 1);
      ValueOfZeros(k - 1);
    }
  }

  /** The padded text still denotes the padded number and has the expected width. */
  lemma ZeroPadDecimal(n: nat, width: nat)
    ensures AllDigits(ZeroPad(Decimal(n), width))
    ensures Value(ZeroPad(Decimal(n), width)) == n
    ensures |ZeroPad(Decimal(n), width)| == if |Decimal(n)| >= width then |Decimal(n)| else width
  {
    var s := Decimal(n);
    if |s| < width {
      ValueZerosPrefix(width - |s|, s);
    }
  }
}

=== FILE: framing.dfy ===
/**
 * The message framing of pysockets.py: `send_msg` writes a start character,
 * the message length as a zero-padded 8-digit decimal, then the message;
 * `receive_msg` skips to the next start character and reads one frame back.
 *
 * The socket is modelled as the sequence of characters it will deliver, and
 * lengths count characters, as `len(message)` does on a Python string. The
 * receiver reads bytes, so characters stand for bytes: the two agree for
 * ASCII text, which is all the program sends.
 */
module Framing {
  import opened Wrappers
  import opened Digits

  /** `STARTBYTE`. */
  const StartByte: char := '\n'

  /** Digits in the length header written by `{len(message):08d}`. */
  const HeaderWidth: nat := 8

  /** The first length that no longer fits in eight digits. */
  const HeaderLimit: nat := 100000000

  lemma HeaderLimitIsPow10()
    ensures Pow10(HeaderWidth) == HeaderLimit
  {
  }

  /** `f'{n:08d}'`: at least eight digits, more when `n` needs them. */
  function Header(n: nat): (h: string)
    ensures AllDigits(h) && Value(h) == n
    ensures n < HeaderLimit <==> |h| == HeaderWidth
    ensures |h| >= HeaderWidth
  {
    ZeroPadDecimal(n, HeaderWidth);
    HeaderLimitIsPow10();
    DecimalLength(n, HeaderWidth);
    ZeroPad(Decimal(n), HeaderWidth)
  }

  /** The text `send_msg` hands to `sendall` for `message`. */
  function Frame(message: string): (f: string)
    ensures |f| >= |message| + 1 + HeaderWidth
    ensures f[0] == StartByte
    ensures f[|f| - |message|..] == message
    ensures |message| < HeaderLimit <==> |f| == |message| + 1 + HeaderWidth
    ensures |message| < HeaderLimit ==>
              AllDigits(f[1..1 + HeaderWidth]) && Value(f[1..1 + HeaderWidth]) == |message|
  {
    var h := Header(|message|);
    var f := [StartByte] + h + message;
    assert f[1..1 + |h|] == h;
    f
  }

  /** Why `receive_msg` gives up: the peer went away, or the header is not a number. */
  datatype RecvError =
    | Closed     // the stream ended (the socket was reset) before the frame was complete
    | BadLength  // the eight header characters are not decimal digits (`int()` raises ValueError)

  /** A received message together with the part of the stream left unread. */
  type Received = Result<(string, string), RecvError>

  /** What `receive_msg` does once the start character is consumed. */
  function ReadFramed(s: string): (r: Received)
    ensures r.Success? ==>
              var (msg, rest) := r.value;
              |msg| < HeaderLimit && |s| >= HeaderWidth && s == s[..HeaderWidth] + msg + rest
    ensures r.Success? <==>
              |s| >= HeaderWidth && AllDigits(s[..HeaderWidth]) && |s| - HeaderWidth >= Value(s[..HeaderWidth])
    ensures r.Success? ==> |r.value.0| == Value(s[..HeaderWidth])
    ensures r == Failure(BadLength) <==> |s| >= HeaderWidth && !AllDigits(s[..HeaderWidth])
  {
    if |s| < HeaderWidth then Failure(Closed)
    else if !AllDigits(s[..HeaderWidth]) then Failure(BadLength)
    else
      var n := Value(s[..HeaderWidth]);
      ValueBelowPow10(s[..HeaderWidth]);
      HeaderLimitIsPow10();
      if |s| - HeaderWidth < n then Failure(Closed)
      else
        assert s == s[..HeaderWidth] + s[HeaderWidth..HeaderWidth + n] + s[HeaderWidth + n..];
        Success((s[HeaderWidth..HeaderWidth + n], s[HeaderWidth + n..]))
  }

  /** The specification of `receive_msg`: skip to the first start character, then read a frame. */
  function Receive(s: string): (r: Received)
    ensures r.Success? ==> |r.value.0| < HeaderLimit && |r.value.0| + |r.value.1| + 1 + HeaderWidth <= |s|
    decreases |s|
  {
    if s == [] then Failure(Closed)
    else if s[0] != StartByte then Receive(s[1..])
    else ReadFramed(s[1..])
  }

  /** A received message and the text left unread after it are, in that order, the end of the stream. */
  lemma {:induction false} ReceiveTakesFromStream(s: string)
    ensures Receive(s).Success? ==>
              var (msg, rest) := Receive(s).value;
              s[|s| - |msg| - |rest|..] == msg + rest
    decreases |s|
  {
    if s != [] && Receive(s).Success? {
      var (msg, rest) := Receive(s).value;
      var t := s[1..];
      if s[0] != StartByte {
        ReceiveTakesFromStream(t);
        assert t[|t| - |msg| - |rest|..] == s[|s| - |msg| - |rest|..];
      } else {
        assert t == t[..HeaderWidth] + (msg + rest);
        assert t[HeaderWidth..] == msg + rest;
        assert t[HeaderWidth..] == s[|s| - |msg| - |rest|..];
      }
    }
  }

  /** `receive_msg`: one character at a time up to the start character, then header and body. */
  method ReceiveMsg(stream: string) returns (r: Received)
    ensures r == Receive(stream)
  {
    var i := 0;
    while i < |stream| && stream[i] != StartByte
      invariant 0 <= i <= |stream|
      invariant Receive(stream[i..]) == Receive(stream)
    {
      assert stream[i..][1..] == stream[i + 1..];
      i := i + 1;
    }
    if i == |stream| {
      return Failure(Closed);
    }
    assert stream[i..][1..] == stream[i + 1..];
    var body := stream[i + 1..];
    if |body| < HeaderWidth {
      return Failure(Closed);
    }
    var header := body[..HeaderWidth];
    if !AllDigits(header) {
      return Failure(BadLength);
    }
    var n := Value(header);
    if |body| - HeaderWidth < n {
      return Failure(Closed);
    }
    r := Success((body[HeaderWidth..HeaderWidth + n], body[HeaderWidth + n..]));
  }

  /** Every character before the first start character is discarded, and that character is consumed. */
  lemma {:induction false} SkipsToStartByte(junk: string, s: string)
    requires StartByte !in junk
    ensures Receive(junk + [StartByte] + s) == ReadFramed(s)
    decreases |junk|
  {
    if junk == [] {
      assert junk + [StartByte] + s == [StartByte] + s;
      assert ([StartByte] + s)[1..] == s;
    } else {
      assert (junk + [StartByte] + s)[1..] == junk[1..] + [StartByte] + s;
      assert junk[0] in junk;
      SkipsToStartByte(junk[1..], s);
    }
  }

  /** A stream with no start character in it yields no message. */
  lemma {:induction false} NoStartByteNoMessage(s: string)
    requires StartByte !in s
    ensures Receive(s) == Failure(Closed)
    decreases |s|
  {
    if s != [] {
      assert s[0] in s;
      NoStartByteNoMessage(s[1..]);
    }
  }

  /**
   * Round trip with resynchronisation: stray characters before a frame are
   * skipped, the frame yields its message, and exactly `rest` is left unread.
   */
  lemma RoundTrip(junk: string, message: string, rest: string)
    requires StartByte !in junk
    requires |message| < HeaderLimit
    ensures Receive(junk + Frame(message) + rest) == Success((message, rest))
  {
    var h := Header(|message|);
    var s := h + message + rest;
    assert junk + Frame(message) + rest == junk + [StartByte] + s;
    SkipsToStartByte(junk, s);
    assert s[..HeaderWidth] == h;
    assert s[HeaderWidth..HeaderWidth + |message|] == message;
    assert s[HeaderWidth + |message|..] == rest;
  }

  /** A frame at the very start of the stream yields its message and leaves exactly `rest`. */
  lemma FrameRoundTrip(message: string, rest: string)
    requires |message| < HeaderLimit
    ensures Receive(Frame(message) + rest) == Success((message, rest))
  {
    RoundTrip([], message, rest);
    assert [] + Frame(message) + rest == Frame(message) + rest;
  }

  /** Reads messages until `receive_msg` would fail. */
  function ReceiveAll(s: string): seq<string>
    decreases |s|
  {
    match Receive(s)
    case Success((msg, rest)) => [msg] + ReceiveAll(rest)
    case Failure(_) => []
  }

  /** The stream produced by sending `messages` one after the other. */
  function Frames(messages: seq<string>): string {
    if messages == [] then [] else Frame(messages[0]) + Frames(messages[1..])
  }

  /** Consecutive frames decode in the order they were sent, and nothing else is decoded. */
  lemma {:induction false} FramesDecodeInOrder(messages: seq<string>, tail: string)
    requires forall i :: 0 <= i < |messages| ==> |messages[i]| < HeaderLimit
    requires StartByte !in tail
    ensures ReceiveAll(Frames(messages) + tail) == messages
  {
    if messages == [] {
      assert Frames(messages) + tail == tail;
      NoStartByteNoMessage(tail);
    } else {
      var rest := Frames(messages[1..]) + tail;
      assert Frames(messages) + tail == Frame(messages[0]) + rest;
      FrameRoundTrip(messages[0], rest);
      FramesDecodeInOrder(messages[1..], tail);
    }
  }

  /**
   * `send_msg` has no size check: a message of 10^8 characters or more gets a
   * header of more than eight digits, and it can never be received back whole.
   */
  lemma OversizedMessageIsLost(junk: string, message: string, rest: string)
    requires |message| >= HeaderLimit
    ensures |Frame(message)| > |message| + 1 + HeaderWidth
    ensures Receive(junk + Frame(message) + rest) != Success((message, rest))
    ensures Receive(junk + Frame(message) + rest).Success? ==> Receive(junk + Frame(message) + rest).value.0 != message
  {
  }
}

=== FILE: game.dfy ===
/**
 * game.py: the client. The arrow-key handlers move the own dot inside the
 * arena, `update_game_loop` picks the other players to draw, and
 * `online_function` mirrors every roster the server broadcasts.
 *
 * Drawing, labels and the window are outside the model; `mp_player_dots`
 * holds the players that get a dot rather than canvas item handles. A send
 * that raises is the parameter `sendOk == false`, a connect that fails is
 * `reachable == false`, and the server's stream is the text it will deliver.
 */
module Game {
  import opened Wrappers
  import opened Json
  import opened Players
  import Framing
  import Address

  // ---------------------------------------------------------------------------
  // Movement. `DOT_SIZE/2` is a float in the source; every comparison is doubled.

  datatype Direction = Left | Right | Up | Down

  /** The dot lies strictly inside the margin of half a dot on both axes. */
  predicate InArena(cfg: Constants, p: Player) {
    && cfg.dotSize < 2 * p.x < 2 * cfg.canvasX - cfg.dotSize
    && cfg.dotSize < 2 * p.y < 2 * cfg.canvasY - cfg.dotSize
  }

  /** The guard of the handler for `d`, e.g. `x - MOVE_SIZE > 0 + DOT_SIZE/2` for `move_left`. */
  predicate CanMove(cfg: Constants, p: Player, d: Direction) {
    match d
    case Left => 2 * (p.x - cfg.moveSize) > cfg.dotSize
    case Right => 2 * (p.x + cfg.moveSize) < 2 * cfg.canvasX - cfg.dotSize
    case Up => 2 * (p.y - cfg.moveSize) > cfg.dotSize
    case Down => 2 * (p.y + cfg.moveSize) < 2 * cfg.canvasY - cfg.dotSize
  }

  /** The player moved one step of `MOVE_SIZE` towards `d`, guard or no guard. */
  function Shifted(cfg: Constants, p: Player, d: Direction): Player {
    match d
    case Left => p.(x := p.x - cfg.moveSize)
    case Right => p.(x := p.x + cfg.moveSize)
    case Up => p.(y := p.y - cfg.moveSize)
    case Down => p.(y := p.y + cfg.moveSize)
  }

  /**
   * The own player after the arrow-key handler for `d` while in game: a step
   * is taken exactly when it keeps the dot inside the arena, only the
   * coordinate of that axis changes, and the arena invariant is kept.
   */
  function Step(cfg: Constants, p: Player, d: Direction): (q: Player)
    ensures q == p || q == Shifted(cfg, p, d)
    ensures q.(x := p.x, y := p.y) == p
    ensures d.Left? || d.Right? ==> q.y == p.y
    ensures d.Up? || d.Down? ==> q.x == p.x
    ensures cfg.Valid() && InArena(cfg, p) ==> InArena(cfg, q)
    ensures cfg.Valid() && InArena(cfg, p) ==>
              (q == Shifted(cfg, p, d) <==> InArena(cfg, Shifted(cfg, p, d)))
  {
    if CanMove(cfg, p, d) then Shifted(cfg, p, d) else p
  }

  /** A fresh player's random position, in [DOT_SIZE, CANVAS_SIZE - DOT_SIZE], is inside the arena. */
  lemma DefaultPositionInArena(cfg: Constants, p: Player)
    requires cfg.Valid()
    requires cfg.dotSize <= p.x <= cfg.canvasX - cfg.dotSize
    requires cfg.dotSize <= p.y <= cfg.canvasY - cfg.dotSize
    ensures InArena(cfg, p)
  {
  }

  // ---------------------------------------------------------------------------
  // The other players drawn by `update_game_loop`.

  /** A roster entry gets a dot: it is not the own player and it is in game. */
  predicate IsRemoteDot(p: Player, ownId: int) {
    p.id != ownId && p.inGame
  }

  function RemoteDots(players: seq<Player>, ownId: int): seq<Player> {
    if players == [] then []
    else (if IsRemoteDot(players[0], ownId) then [players[0]] else []) + RemoteDots(players[1..], ownId)
  }

  /** The dots drawn are exactly the roster entries of other players in game. */
  lemma {:induction false} RemoteDotsMembership(players: seq<Player>, ownId: int, p: Player)
    ensures p in RemoteDots(players, ownId) <==> p in players && IsRemoteDot(p, ownId)
  {
    if players != [] {
      RemoteDotsMembership(players[1..], ownId, p);
      assert players == [players[0]] + players[1..];
    }
  }

  /** The filter keeps roster order: it distributes over concatenation. */
  lemma {:induction false} RemoteDotsAppend(a: seq<Player>, b: seq<Player>, ownId: int)
    ensures RemoteDots(a + b, ownId) == RemoteDots(a, ownId) + RemoteDots(b, ownId)
  {
    if a == [] {
      assert a + b == b;
    } else {
      assert (a + b)[0] == a[0];
      assert (a + b)[1..] == a[1..] + b;
      RemoteDotsAppend(a[1..], b, ownId);
    }
  }

  /** The filter never draws more dots than there are roster entries. */
  lemma {:induction false} RemoteDotsLength(players: seq<Player>, ownId: int)
    ensures |RemoteDots(players, ownId)| <= |players|
    ensures |RemoteDots(players, ownId)| == |players| <==>
              forall i :: 0 <= i < |players| ==> IsRemoteDot(players[i], ownId)
  {
    if players != [] {
      RemoteDotsLength(players[1..], ownId);
      assert forall i :: 1 <= i < |players| ==> players[i] == players[1..][i - 1];
    }
  }

  /** The `for p in self.mp_players` loop of `update_game_loop`. */
  method CollectRemoteDots(players: seq<Player>, ownId: int) returns (dots: seq<Player>)
    ensures dots == RemoteDots(players, ownId)
  {
    dots := [];
    for i := 0 to |players|
      invariant dots == RemoteDots(players[..i], ownId)
    {
      assert players[..i + 1] == players[..i] + [players[i]];
      RemoteDotsAppend(players[..i], [players[i]], ownId);
      assert [players[i]][1..] == [];
      if players[i].id == ownId {
        continue;
      }
      if players[i].inGame {
        dots := dots + [players[i]];
      }
    }
    assert players[..|players|] == players;
  }

  // ---------------------------------------------------------------------------
  // Decoding a roster document `{"players": [...]}`.

  /** `player_from_dict` on each element in turn; the first failure is the one raised. */
  function DecodeAll(rng: SeededIndex, items: seq<Value>): (r: Result<seq<Player>, DecodeError>)
    ensures r.Success? <==> forall i :: 0 <= i < |items| ==> IsWireRecord(items[i])
    ensures r.Success? ==> |r.value| == |items|
    ensures r.Success? ==> forall i :: 0 <= i < |items| ==> FromDict(rng, items[i]) == Success(r.value[i])
  {
    if items == [] then Success([])
    else
      assert forall i :: 1 <= i < |items| ==> items[i] == items[1..][i - 1];
      match FromDict(rng, items[0])
      case Failure(e) => Failure(e)
      case Success(p) =>
        match DecodeAll(rng, items[1..])
        case Failure(e) => Failure(e)
        case Success(ps) => Success([p] + ps)
  }

  /** A decoded prefix in front of the outcome of decoding the rest. */
  function Prefixed(ps: seq<Player>, r: Result<seq<Player>, DecodeError>): Result<seq<Player>, DecodeError> {
    match r
    case Success(qs) => Success(ps + qs)
    case Failure(e) => Failure(e)
  }

  /** The `temp_player_list` loop of `online_function`. */
  method BuildRoster(rng: SeededIndex, items: seq<Value>) returns (r: Result<seq<Player>, DecodeError>)
    ensures r == DecodeAll(rng, items)
  {
    var temp: seq<Player> := [];
    var i := 0;
    PrefixedEnds([], DecodeAll(rng, items));
    assert items[0..] == items;
    while i < |items|
      invariant 0 <= i <= |items|
      invariant DecodeAll(rng, items) == Prefixed(temp, DecodeAll(rng, items[i..]))
    {
      var d := FromDict(rng, items[i]);
      DecodeAllStep(rng, items, i);
      if d.Failure? {
        return Failure(d.error);
      }
      PrefixedAppend(temp, d.value, DecodeAll(rng, items[i + 1..]));
      temp := temp + [d.value];
      i := i + 1;
    }
    assert items[i..] == [];
    PrefixedEnds(temp, DecodeAll(rng, []));
    r := Success(temp);
  }

  lemma PrefixedEnds(ps: seq<Player>, r: Result<seq<Player>, DecodeError>)
    ensures Prefixed([], r) == r
    ensures r == Success([]) ==> Prefixed(ps, r) == Success(ps)
  {
    if r.Success? {
      assert [] + r.value == r.value;
      assert ps + [] == ps;
    }
  }

  /** Decoding from position `i` decodes `items[i]`, then the rest. */
  lemma DecodeAllStep(rng: SeededIndex, items: seq<Value>, i: nat)
    requires i < |items|
    ensures FromDict(rng, items[i]).Failure? ==>
              DecodeAll(rng, items[i..]) == Failure(FromDict(rng, items[i]).error)
    ensures FromDict(rng, items[i]).Success? ==>
              DecodeAll(rng, items[i..]) == Prefixed([FromDict(rng, items[i]).value], DecodeAll(rng, items[i + 1..]))
  {
    assert items[i..][0] == items[i] && items[i..][1..] == items[i + 1..];
  }

  lemma PrefixedAppend(ps: seq<Player>, p: Player, r: Result<seq<Player>, DecodeError>)
    ensures Prefixed(ps, Prefixed([p], r)) == Prefixed(ps + [p], r)
  {
    if r.Success? {
      assert ps + ([p] + r.value) == (ps + [p]) + r.value;
    }
  }

  /**
   * `msg['players']` and the loop over it. Subscripting anything but an object
   * raises TypeError, a missing key KeyError. Iterating an object visits its
   * keys and a string its characters, and `player_from_dict` raises TypeError
   * on a string, so those decode only when empty; a number is not iterable.
   */
  function DecodeRoster(rng: SeededIndex, msg: Value): (r: Result<seq<Player>, DecodeError>)
    ensures !msg.Object? ==> r == Failure(TypeError)
    ensures msg.Object? && "players" !in msg.fields ==> r == Failure(KeyError("players"))
    ensures msg.Object? && "players" in msg.fields && msg.fields["players"].List? ==>
              r == DecodeAll(rng, msg.fields["players"].items)
    ensures r.Success? ==> forall i :: 0 <= i < |r.value| ==> WellFormed(rng, r.value[i])
  {
    if !msg.Object? then Failure(TypeError)
    else if "players" !in msg.fields then Failure(KeyError("players"))
    else
      match msg.fields["players"]
      case List(items) => DecodeAll(rng, items)
      case Str(s) => if s == [] then Success([]) else Failure(TypeError)
      case Object(fields) => if fields == map[] then Success([]) else Failure(TypeError)
      case Int(_) => Failure(TypeError)
      case Bool(_) => Failure(TypeError)
  }

  // ---------------------------------------------------------------------------
  // The receive loop of `online_function`, read by read.

  /** What one `receive_msg`, `json.loads` and roster decoding yield, as the loop's `try` sees it. */
  datatype RosterRead =
    | Roster(players: seq<Player>)  // a roster arrived: it replaces the mirror
    | Garbled  // json.JSONDecodeError: the loop reads again
    | Lost  // ConnectionResetError: the service restarts
    | Broken  // ValueError, KeyError or TypeError: nothing catches it and the thread ends

  function ClassifyRoster(got: Framing.Received, parse: string -> Option<Value>, rng: SeededIndex): RosterRead {
    match got
    case Failure(Closed) => Lost
    case Failure(BadLength) => Broken
    case Success((msg, _)) =>
      match parse(msg)
      case None => Garbled
      case Some(v) =>
        match DecodeRoster(rng, v)
        case Success(players) => Roster(players)
        case Failure(_) => Broken
  }

  predicate KeepsReading(read: RosterRead) {
    read.Roster? || read.Garbled?
  }

  /**
   * The read that ends the loop on `stream`, and the mirror at that moment:
   * every roster received replaces the mirror wholesale.
   */
  function Session(stream: string, parse: string -> Option<Value>, rng: SeededIndex, mirror: seq<Player>)
    : (r: (RosterRead, seq<Player>))
    ensures !KeepsReading(r.0)
    decreases |stream|
  {
    var got := Framing.Receive(stream);
    var read := ClassifyRoster(got, parse, rng);
    if got.Failure? || !KeepsReading(read) then (read, mirror)
    else Session(got.value.1, parse, rng, if read.Roster? then read.players else mirror)
  }

  /** Once a roster arrives, what the mirror held before is forgotten: no merge. */
  lemma RosterReplacesMirror(stream: string, parse: string -> Option<Value>, rng: SeededIndex,
                             m1: seq<Player>, m2: seq<Player>)
    requires ClassifyRoster(Framing.Receive(stream), parse, rng).Roster?
    ensures Session(stream, parse, rng, m1) == Session(stream, parse, rng, m2)
  {
  }

  /** A message that decodes to a roster is consumed, and the session goes on with that roster. */
  lemma SessionAfterRoster(stream: string, parse: string -> Option<Value>, rng: SeededIndex,
                           mirror: seq<Player>, msg: string, rest: string, v: Value, players: seq<Player>)
    requires Framing.Receive(stream) == Success((msg, rest))
    requires parse(msg) == Some(v) && DecodeRoster(rng, v) == Success(players)
    ensures Session(stream, parse, rng, mirror) == Session(rest, parse, rng, players)
  {
  }

  /** Text without a start character holds no frame: the session ends by the reset, mirror unchanged. */
  lemma SessionWithoutFrames(stream: string, parse: string -> Option<Value>, rng: SeededIndex, mirror: seq<Player>)
    requires Framing.StartByte !in stream
    ensures Session(stream, parse, rng, mirror) == (Lost, mirror)
  {
    Framing.NoStartByteNoMessage(stream);
  }

  // ---------------------------------------------------------------------------
  // The client object.

  /** `GuiGame`, without its window. */
  class GuiGame {
    const cfg: Constants
    const rng: SeededIndex
    var serverAddr: string
    var inGame: bool
    var player: Option<Player>
    var mpConnected: bool
    var mpPlayers: seq<Player>
    var mpPlayerDots: seq<Player>
    var stopThread: bool
    /** The wire records sent to the server, oldest first. */
    var outbox: seq<map<string, Value>>

    /** The own player exists while in game, sits inside the arena and carries its id's colour. */
    ghost predicate Valid()
      reads this
    {
      && cfg.Valid()
      && (inGame ==> player.Some?)
      && (player.Some? ==> InArena(cfg, player.value) && WellFormed(rng, player.value))
    }

    /** `GuiGame.__init__`; `serverAddr` is the address shown in the entry box. */
    constructor (cfg: Constants, rng: SeededIndex, serverAddr: string)
      requires cfg.Valid()
      ensures Valid()
      ensures this.cfg == cfg && this.rng == rng && this.serverAddr == serverAddr
      ensures !inGame && player.None? && !mpConnected && mpPlayers == [] && mpPlayerDots == []
      ensures !stopThread && outbox == []
    {
      this.cfg := cfg;
      this.rng := rng;
      this.serverAddr := serverAddr;
      inGame := false;
      player := None;
      mpConnected := false;
      mpPlayers := [];
      mpPlayerDots := [];
      stopThread := false;
      outbox := [];
    }

    /** `server_connect`: connects only to a well-formed address that accepts the connection. */
    method ServerConnect(reachable: bool)
      requires Valid()
      modifies this
      ensures Valid()
      ensures mpConnected == (old(mpConnected) || (Address.IsValidAddress(serverAddr) && reachable))
      ensures serverAddr == old(serverAddr) && inGame == old(inGame) && player == old(player)
      ensures mpPlayers == old(mpPlayers) && mpPlayerDots == old(mpPlayerDots)
      ensures stopThread == old(stopThread) && outbox == old(outbox)
    {
      if Address.IsValidAddress(serverAddr) {
        if !reachable {
          return;
        }
        mpConnected := true;
      }
    }

    /** `move`: send the own record when connected; a send that raises OSError is swallowed. */
    method Move(sendOk: bool)
      requires Valid() && player.Some?
      modifies this
      ensures Valid()
      ensures serverAddr == old(serverAddr) && inGame == old(inGame) && player == old(player)
      ensures outbox == old(outbox) + (if mpConnected && sendOk then [Players.AsDict(player.value)] else [])
      ensures mpConnected == old(mpConnected) && mpPlayers == old(mpPlayers)
      ensures mpPlayerDots == old(mpPlayerDots) && stopThread == old(stopThread)
    {
      if mpConnected {
        if sendOk {
          outbox := outbox + [Players.AsDict(player.value)];
        }
      }
    }

    /**
     * `move_left`, `move_right`, `move_up`, `move_down`: while in game, take
     * the step when the guard allows and send the new position.
     */
    method ArrowKey(d: Direction, sendOk: bool)
      requires Valid()
      modifies this
      ensures Valid()
      ensures !old(inGame) ==> player == old(player) && outbox == old(outbox)
      ensures old(inGame) ==> player == Some(Step(cfg, old(player).value, d))
      ensures outbox == old(outbox) +
                if old(inGame) && CanMove(cfg, old(player).value, d) && mpConnected && sendOk
                then [Players.AsDict(player.value)] else []
      ensures serverAddr == old(serverAddr) && inGame == old(inGame)
      ensures mpConnected == old(mpConnected) && mpPlayers == old(mpPlayers)
      ensures mpPlayerDots == old(mpPlayerDots) && stopThread == old(stopThread)
    {
      if inGame {
        var p := player.value;
        if CanMove(cfg, p, d) {
          player := Some(Shifted(cfg, p, d));
          Move(sendOk);
        }
      }
    }

    /** `update_game_loop`, one round: the dots of the other players in game. */
    method UpdateGameLoop()
      requires Valid() && player.Some?
      modifies this
      ensures Valid()
      ensures serverAddr == old(serverAddr) && inGame == old(inGame) && player == old(player)
      ensures mpPlayerDots == RemoteDots(mpPlayers, player.value.id)
      ensures mpConnected == old(mpConnected) && mpPlayers == old(mpPlayers)
      ensures stopThread == old(stopThread) && outbox == old(outbox)
    {
      mpPlayerDots := CollectRemoteDots(mpPlayers, player.value.id);
    }

    /**
     * `start_game`: connect if needed; once connected and not yet in game,
     * create the player with id `now` (the clock in milliseconds), send it,
     * and enter the game. A send that raises leaves the player created but
     * the game not entered.
     */
    method StartGame(now: int, reachable: bool, sendOk: bool)
      requires Valid() && cfg.RoomForDot()
      modifies this
      ensures Valid()
      ensures mpConnected == (old(mpConnected) || (Address.IsValidAddress(serverAddr) && reachable))
      ensures !mpConnected || old(inGame) ==>
                player == old(player) && inGame == old(inGame) && outbox == old(outbox) &&
                mpPlayerDots == old(mpPlayerDots)
      ensures mpConnected && !old(inGame) ==>
                player.Some? && player.value.id == now && player.value.inGame && inGame == sendOk &&
                outbox == old(outbox) + (if sendOk then [Players.AsDict(player.value)] else [])
      ensures mpConnected && !old(inGame) && sendOk ==> mpPlayerDots == RemoteDots(mpPlayers, now)
      ensures mpConnected && !old(inGame) && !sendOk ==> mpPlayerDots == old(mpPlayerDots)
      ensures serverAddr == old(serverAddr) && mpPlayers == old(mpPlayers) && stopThread == old(stopThread)
    {
      if !mpConnected {
        ServerConnect(reachable);
      }
      if mpConnected && !inGame {
        var p := NewPlayer(cfg, rng, id := now, inGame := true);
        DefaultPositionInArena(cfg, p);
        player := Some(p);
        if !sendOk {
          return;
        }
        outbox := outbox + [Players.AsDict(p)];
        inGame := true;
        UpdateGameLoop();
      }
    }

    /** `on_closing`: leave the game and tell the server; a send that raises skips `stop_thread`. */
    method OnClosing(sendOk: bool)
      requires Valid()
      modifies this
      ensures Valid()
      ensures old(player).None? ==> player.None? && outbox == old(outbox) && stopThread
      ensures old(player).Some? ==>
                player == Some(old(player).value.(inGame := false)) &&
                outbox == old(outbox) + (if sendOk then [Players.AsDict(player.value)] else []) &&
                stopThread == (sendOk || old(stopThread))
      ensures serverAddr == old(serverAddr) && inGame == old(inGame) && mpConnected == old(mpConnected)
      ensures mpPlayers == old(mpPlayers) && mpPlayerDots == old(mpPlayerDots)
    {
      if player.Some? {
        player := Some(player.value.(inGame := false));
        if !sendOk {
          return;
        }
        outbox := outbox + [Players.AsDict(player.value)];
      }
      stopThread := true;
    }

    /** `restart_online_service` up to the reconnect: disconnected, with an empty mirror. */
    method RestartOnlineService()
      requires Valid()
      modifies this
      ensures Valid()
      ensures !mpConnected && mpPlayers == []
      ensures serverAddr == old(serverAddr) && inGame == old(inGame) && player == old(player)
      ensures mpPlayerDots == old(mpPlayerDots) && stopThread == old(stopThread) && outbox == old(outbox)
    {
      mpConnected := false;
      mpPlayers := [];
    }

    /**
     * `online_function`: while connected and not stopped, mirror every roster
     * received, until the connection resets (restart) or an uncaught exception
     * ends the thread. Returns the read that ended the loop, or None when the
     * loop did not start.
     */
    method OnlineFunction(stream: string, parse: string -> Option<Value>) returns (ended: Option<RosterRead>)
      requires Valid()
      modifies this
      ensures Valid()
      ensures old(stopThread) || !old(mpConnected) ==>
                ended.None? && mpConnected == old(mpConnected) && mpPlayers == old(mpPlayers)
      ensures !old(stopThread) && old(mpConnected) ==>
                var (last, mirror) := Session(stream, parse, rng, old(mpPlayers));
                && ended == Some(last)
                && (last.Lost? ==> !mpConnected && mpPlayers == [])
                && (last.Broken? ==> mpConnected && mpPlayers == mirror)
      ensures serverAddr == old(serverAddr) && inGame == old(inGame) && player == old(player)
      ensures mpPlayerDots == old(mpPlayerDots) && stopThread == old(stopThread) && outbox == old(outbox)
    {
      if stopThread || !mpConnected {
        return None;
      }
      var rest := stream;
      // Within one thread nothing clears `mp_connected` or sets `stop_thread`
      // inside the loop, so only an exception leaves it.
      while true
        invariant Valid() && mpConnected
        invariant Session(rest, parse, rng, mpPlayers) == Session(stream, parse, rng, old(mpPlayers))
        invariant serverAddr == old(serverAddr) && inGame == old(inGame) && player == old(player)
        invariant mpPlayerDots == old(mpPlayerDots) && stopThread == old(stopThread)
        invariant outbox == old(outbox)
        decreases |rest|
      {
        var got := Framing.ReceiveMsg(rest);
        var read := ClassifyRoster(got, parse, rng);
        match read
        case Lost =>
          RestartOnlineService();
          return Some(read);
        case Broken =>
          return Some(read);
        case Garbled =>
          rest := got.value.1;
        case Roster(players) =>
          mpPlayers := players;
          rest := got.value.1;
      }
    }
  }
}

=== FILE: json.dfy ===
/**
 * The decoded form of a JSON document, as `json.loads` hands it to the program.
 * The JSON text itself (serialisation and parsing) is not modelled: where the
 * program parses text, the model takes the parser as a parameter.
 */
module Json {

  datatype Value =
    | Int(i: int)
    | Bool(b: bool)
    | Str(s: string)
    | List(items: seq<Value>)
    | Object(fields: map<string, Value>)
}

=== FILE: player.dfy ===
/**
 * player.py: the player record, its colour derived from the id, and the
 * conversion to and from the wire record `{x, y, id, in_game}`.
 *
 * The values of the `constants` module are parameters (`Constants`), and the
 * Mersenne Twister behind `random.seed(n); random.randint(0, 19)` is an
 * arbitrary deterministic function of the seed into the palette's indices.
 */
module Players {
  import opened Wrappers
  import opened Json

  /** `COLORS`: the fixed palette. */
  const Colors: seq<string> := [
    "#C62828", "#AD1457", "#6A1B9A", "#4527A0", "#283593", "#1565C0", "#0277BD",
    "#00838F", "#00695C", "#2E7D32", "#558B2F", "#9E9D24", "#F9A825", "#FF8F00",
    "#EF6C00", "#D84315", "#4E342E", "#616161", "#546E7A", "#000000"]

  const PaletteSize: nat := 20

  /** `random.randint(0, len(COLORS) - 1)` right after `random.seed(n)`, as a function of `n`. */
  type SeededIndex = f: int -> int | forall n :: 0 <= f(n) < PaletteSize
    witness (n: int) => 0

  /** The values of the `constants` module that the core uses. */
  datatype Constants = Constants(canvasX: int, canvasY: int, dotSize: int, moveSize: int) {
    predicate Valid() {
      canvasX > 0 && canvasY > 0 && dotSize > 0 && moveSize > 0
    }

    /** `randint(DOT_SIZE, CANVAS_SIZE - DOT_SIZE)` has a non-empty range on both axes. */
    predicate RoomForDot() {
      dotSize <= canvasX - dotSize && dotSize <= canvasY - dotSize
    }
  }

  datatype Player = Player(x: int, y: int, id: int, color: string, inGame: bool)

  /** `get_color(n)`: a palette entry chosen by the generator seeded with `n`. */
  function GetColor(rng: SeededIndex, n: int): (c: string)
    ensures c in Colors
  {
    assert |Colors| == PaletteSize;
    Colors[rng(n)]
  }

  /** The colour a player carries is the one its id determines. */
  predicate WellFormed(rng: SeededIndex, p: Player) {
    p.color == GetColor(rng, p.id)
  }

  /** `Player(id, x, y, in_game)` with both coordinates supplied. */
  function Build(rng: SeededIndex, id: int, x: int, y: int, inGame: bool): (p: Player)
    ensures WellFormed(rng, p)
    ensures p.id == id && p.x == x && p.y == y && p.inGame == inGame
  {
    Player(x, y, id, GetColor(rng, id), inGame)
  }

  /**
   * `Player.__init__`: a supplied coordinate is kept, an omitted one is drawn
   * from `randint(DOT_SIZE, CANVAS_SIZE - DOT_SIZE)`; the colour follows the id.
   * `randint` raises on an empty range, hence the requirement on the constants.
   */
  method NewPlayer(cfg: Constants, rng: SeededIndex, id: int := 0, x: Option<int> := None,
                   y: Option<int> := None, inGame: bool := false) returns (p: Player)
    requires x.None? ==> cfg.dotSize <= cfg.canvasX - cfg.dotSize
    requires y.None? ==> cfg.dotSize <= cfg.canvasY - cfg.dotSize
    ensures x.Some? ==> p.x == x.value
    ensures x.None? ==> cfg.dotSize <= p.x <= cfg.canvasX - cfg.dotSize
    ensures y.Some? ==> p.y == y.value
    ensures y.None? ==> cfg.dotSize <= p.y <= cfg.canvasY - cfg.dotSize
    ensures p.id == id && p.inGame == inGame && WellFormed(rng, p)
  {
    var px: int;
    if x.None? {
      px :| cfg.dotSize <= px <= cfg.canvasX - cfg.dotSize;
    } else {
      px := x.value;
    }
    var py: int;
    if y.None? {
      py :| cfg.dotSize <= py <= cfg.canvasY - cfg.dotSize;
    } else {
      py := y.value;
    }
    p := Build(rng, id, px, py, inGame);
  }

  /** The keys of the wire record; `color` is not among them. */
  const WireKeys: set<string> := {"x", "y", "id", "in_game"}

  /** `Player.as_dict()`. */
  function AsDict(p: Player): (d: map<string, Value>)
    ensures d.Keys == WireKeys && "color" !in d
    ensures d["x"] == Int(p.x) && d["y"] == Int(p.y) && d["id"] == Int(p.id)
    ensures d["in_game"] == Bool(p.inGame)
  {
    map["x" := Int(p.x), "y" := Int(p.y), "id" := Int(p.id), "in_game" := Bool(p.inGame)]
  }

  datatype DecodeError =
    | JsonDecodeError  // `json.loads` rejected the text
    | KeyError(key: string)  // a field of the record is missing
    | TypeError  // the document is not an object, or a field has the wrong kind of value

  /** A JSON object holding every wire key with a value of the right kind. */
  predicate IsWireRecord(v: Value) {
    && v.Object?
    && WireKeys <= v.fields.Keys
    && v.fields["x"].Int? && v.fields["y"].Int? && v.fields["id"].Int?
    && v.fields["in_game"].Bool?
  }

  /**
   * `player_from_dict(d)`: reads `id`, `x`, `y`, `in_game` in that order, so
   * the first of them that is missing is the one reported.
   */
  function FromDict(rng: SeededIndex, v: Value): (r: Result<Player, DecodeError>)
    ensures r.Success? <==> IsWireRecord(v)
    ensures r.Success? ==>
              WellFormed(rng, r.value) &&
              Int(r.value.x) == v.fields["x"] && Int(r.value.y) == v.fields["y"] &&
              Int(r.value.id) == v.fields["id"] && Bool(r.value.inGame) == v.fields["in_game"]
    ensures r.Failure? && v.Object? && "id" !in v.fields ==> r.error == KeyError("id")
  {
    if !v.Object? then Failure(TypeError)
    else
      var d := v.fields;
      if "id" !in d then Failure(KeyError("id"))
      else if "x" !in d then Failure(KeyError("x"))
      else if "y" !in d then Failure(KeyError("y"))
      else if "in_game" !in d then Failure(KeyError("in_game"))
      else if !(d["id"].Int? && d["x"].Int? && d["y"].Int? && d["in_game"].Bool?) then Failure(TypeError)
      else Success(Build(rng, d["id"].i, d["x"].i, d["y"].i, d["in_game"].b))
  }

  /** `player_from_json(s)`: `json.loads`, modelled by `parse`, then `player_from_dict`. */
  function FromJson(parse: string -> Option<Value>, rng: SeededIndex, s: string): (r: Result<Player, DecodeError>)
    ensures r.Success? <==> parse(s).Some? && IsWireRecord(parse(s).value)
    ensures parse(s).None? ==> r == Failure(JsonDecodeError)
  {
    match parse(s)
    case None => Failure(JsonDecodeError)
    case Some(v) => FromDict(rng, v)
  }

  /**
   * Decoding the wire record of a player rebuilds it: same position, id and
   * status, and the colour it had, recomputed from the id.
   */
  lemma WireRoundTrip(rng: SeededIndex, p: Player)
    requires WellFormed(rng, p)
    ensures FromDict(rng, Object(AsDict(p))) == Success(p)
  {
  }

  /** Whatever colour a player claimed, the decoded copy carries the colour of its id. */
  lemma ColorIsNeverSent(rng: SeededIndex, p: Player, q: Player)
    requires p.(color := q.color) == q
    ensures AsDict(p) == AsDict(q)
    ensures FromDict(rng, Object(AsDict(p))) == Success(p.(color := GetColor(rng, p.id)))
  {
  }

  /** A missing field makes decoding fail with the `KeyError` of a field that is missing. */
  lemma MissingFieldFails(rng: SeededIndex, fields: map<string, Value>, key: string)
    requires key in WireKeys && key !in fields
    ensures FromDict(rng, Object(fields)).Failure?
    ensures FromDict(rng, Object(fields)).error.KeyError?
    ensures FromDict(rng, Object(fields)).error.key in WireKeys
    ensures FromDict(rng, Object(fields)).error.key !in fields
  {
  }
}

=== FILE: protocol.dfy ===
/**
 * The two ends together: the roster document the server broadcasts decodes,
 * on the client, to exactly the registry's players with data, in registry
 * order, and a client reading a run of broadcasts mirrors the last one.
 */
module Protocol {
  import opened Wrappers
  import opened Json
  import opened Players
  import Framing
  import Server
  import Game

  /** Every player the registry view holds carries the colour of its id, as decoding made it. */
  predicate ViewWellFormed(rng: SeededIndex, view: seq<Option<Player>>) {
    forall i :: 0 <= i < |view| && view[i].Some? ==> WellFormed(rng, view[i].value)
  }

  /** The records of `json_dumps_players` decode, one by one, back to the players they came from. */
  lemma {:induction false} RecordsDecode(rng: SeededIndex, view: seq<Option<Player>>)
    requires ViewWellFormed(rng, view)
    ensures Game.DecodeAll(rng, Server.Records(view)) == Success(Server.Present(view))
  {
    if view != [] {
      assert ViewWellFormed(rng, view[1..]) by {
        assert forall i :: 1 <= i < |view| ==> view[i] == view[1..][i - 1];
      }
      RecordsDecode(rng, view[1..]);
      var tail := Server.Records(view[1..]);
      if view[0].Some? {
        var p := view[0].value;
        var items := [Object(Players.AsDict(p))] + tail;
        assert Server.Records(view) == items;
        assert items[0] == Object(Players.AsDict(p)) && items[1..] == tail;
        WireRoundTrip(rng, p);
        assert Server.Present(view) == [p] + Server.Present(view[1..]);
      } else {
        assert Server.Records(view) == tail;
        assert Server.Present(view) == Server.Present(view[1..]);
      }
    }
  }

  /** The broadcast document decodes to the registry's players with data, in registry order. */
  lemma RosterRoundTrip(rng: SeededIndex, view: seq<Option<Player>>)
    requires ViewWellFormed(rng, view)
    ensures Game.DecodeRoster(rng, Server.PlayersDocument(view)) == Success(Server.Present(view))
  {
    RecordsDecode(rng, view);
  }

  /**
   * The document `broadcast_player_info` sends for a registry whose stored
   * players came from decoding decodes back to exactly those players.
   */
  lemma RegistryRosterDecodes(reg: Server.Registry, rng: SeededIndex)
    requires reg.Valid() && reg.DataWellFormed(rng)
    ensures Game.DecodeRoster(rng, Server.PlayersDocument(reg.View())) == Success(Server.Present(reg.View()))
  {
    var view := reg.View();
    assert forall i :: 0 <= i < |view| ==>
             reg.order[i] in reg.entries && view[i] == reg.entries[reg.order[i]].playerData;
    RosterRoundTrip(rng, view);
  }

  /**
   * A client that receives the frames of the JSON texts `texts`, the i-th of
   * which `json.loads` turns into the roster document of the registry view
   * `views[i]`, followed by the end of the connection, ends its session by
   * the reset with the last roster mirrored.
   */
  lemma {:induction false} ClientMirrorsLastBroadcast(
    parse: string -> Option<Value>, rng: SeededIndex,
    texts: seq<string>, views: seq<seq<Option<Player>>>, tail: string, mirror: seq<Player>)
    requires |texts| == |views| >= 1
    requires forall i :: 0 <= i < |texts| ==> |texts[i]| < Framing.HeaderLimit
    requires forall i :: 0 <= i < |texts| ==> parse(texts[i]) == Some(Server.PlayersDocument(views[i]))
    requires forall i :: 0 <= i < |views| ==> ViewWellFormed(rng, views[i])
    requires Framing.StartByte !in tail
    ensures Game.Session(Framing.Frames(texts) + tail, parse, rng, mirror) ==
              (Game.Lost, Server.Present(views[|views| - 1]))
  {
    var rest := Framing.Frames(texts[1..]) + tail;
    assert Framing.Frames(texts) + tail == Framing.Frame(texts[0]) + rest;
    RosterFrameStep(parse, rng, texts[0], views[0], rest, mirror);
    var players := Server.Present(views[0]);
    if |texts| == 1 {
      assert rest == tail;
      Game.SessionWithoutFrames(tail, parse, rng, players);
    } else {
      assert forall i :: 1 <= i < |texts| ==> texts[i] == texts[1..][i - 1];
      assert forall i :: 1 <= i < |views| ==> views[i] == views[1..][i - 1];
      ClientMirrorsLastBroadcast(parse, rng, texts[1..], views[1..], tail, players);
    }
  }

  /** One broadcast frame received: its roster becomes the mirror and reading goes on after it. */
  lemma RosterFrameStep(parse: string -> Option<Value>, rng: SeededIndex, text: string,
                        view: seq<Option<Player>>, rest: string, mirror: seq<Player>)
    requires |text| < Framing.HeaderLimit
    requires parse(text) == Some(Server.PlayersDocument(view))
    requires ViewWellFormed(rng, view)
    ensures Game.Session(Framing.Frame(text) + rest, parse, rng, mirror) ==
              Game.Session(rest, parse, rng, Server.Present(view))
  {
    Framing.FrameRoundTrip(text, rest);
    RosterRoundTrip(rng, view);
    Game.SessionAfterRoster(Framing.Frame(text) + rest, parse, rng, mirror, text, rest,
                            Server.PlayersDocument(view), Server.Present(view));
  }
}

=== FILE: server.dfy ===
/**
 * server.py: the `PLAYERS` registry, the per-connection read loop that
 * updates it, the roster document and its broadcast, and the bind-port scan.
 *
 * Handlers run one step at a time here; threads, sockets and the JSON text
 * are outside the model (see README.md).
 */
module Server {
  import opened Wrappers
  import opened Json
  import opened Players
  import Framing
  import Address

  /** A connection handle; only its identity matters. */
  type ConnId = nat

  /** `OnlinePlayer`: a connection and the player data last received on it. */
  class OnlinePlayer {
    const conn: ConnId
    const addr: string
    var playerData: Option<Player>

    constructor (conn: ConnId, addr: string)
      ensures this.conn == conn && this.addr == addr && playerData == None
    {
      this.conn := conn;
      this.addr := addr;
      playerData := None;
    }

    /** `OnlinePlayer.as_dict()`: the player's wire record, or `{}` before any data arrived. */
    function AsDict(): (d: map<string, Value>)
      reads this
      ensures playerData.None? <==> d == map[]
      ensures playerData.Some? ==> d.Keys == WireKeys && d == Players.AsDict(playerData.value)
    {
      if playerData.Some? then Players.AsDict(playerData.value) else map[]
    }
  }

  // ---------------------------------------------------------------------------
  // The roster document, as a function of the registry's entries in order.

  /** The records `json_dumps_players` appends, one per entry whose player data is set. */
  function Records(view: seq<Option<Player>>): (rs: seq<Value>)
    ensures |rs| <= |view|
  {
    if view == [] then []
    else
      (if view[0].Some? then [Object(AsDict(view[0].value))] else []) + Records(view[1..])
  }

  /** The players whose data is set, in registry order. */
  function Present(view: seq<Option<Player>>): seq<Player> {
    if view == [] then []
    else (if view[0].Some? then [view[0].value] else []) + Present(view[1..])
  }

  /** `{"players": [...]}`. */
  function PlayersDocument(view: seq<Option<Player>>): Value {
    Object(map["players" := List(Records(view))])
  }

  /** The records are exactly the wire records of the present players, in order. */
  lemma {:induction false} RecordsOfPresent(view: seq<Option<Player>>)
    ensures |Records(view)| == |Present(view)|
    ensures forall i :: 0 <= i < |Records(view)| ==> Records(view)[i] == Object(AsDict(Present(view)[i]))
  {
    if view != [] {
      RecordsOfPresent(view[1..]);
      if view[0].Some? {
        WireRecordsCons(view[0].value, Records(view[1..]), Present(view[1..]));
      }
    }
  }

  lemma WireRecordsCons(p: Player, rs: seq<Value>, ps: seq<Player>)
    requires |rs| == |ps| && forall i :: 0 <= i < |rs| ==> rs[i] == Object(AsDict(ps[i]))
    ensures forall i :: 0 <= i < |rs| + 1 ==> ([Object(AsDict(p))] + rs)[i] == Object(AsDict(([p] + ps)[i]))
  {
  }

  lemma {:induction false} RecordsAppend(a: seq<Option<Player>>, b: seq<Option<Player>>)
    ensures Records(a + b) == Records(a) + Records(b)
  {
    if a == [] {
      assert a + b == b;
    } else {
      var head := if a[0].Some? then [Object(AsDict(a[0].value))] else [];
      assert (a + b)[0] == a[0];
      assert (a + b)[1..] == a[1..] + b;
      RecordsAppend(a[1..], b);
      calc {
        Records(a + b);
        head + Records(a[1..] + b);
        head + (Records(a[1..]) + Records(b));
        (head + Records(a[1..])) + Records(b);
      }
    }
  }

  /** One more entry read: its record, if it has player data, goes last. */
  lemma RecordsSnoc(view: seq<Option<Player>>, i: nat)
    requires i < |view|
    ensures Records(view[..i + 1]) ==
              Records(view[..i]) + (if view[i].Some? then [Object(AsDict(view[i].value))] else [])
  {
    assert view[..i + 1] == view[..i] + [view[i]];
    RecordsAppend(view[..i], [view[i]]);
    assert [view[i]][1..] == [];
  }

  /** The connections a broadcast reaches: those before the first one whose send fails. */
  function Delivered(conns: seq<ConnId>, fails: set<ConnId>): (d: seq<ConnId>)
    ensures |d| <= |conns| && d == conns[..|d|]
    ensures forall c :: c in d ==> c !in fails
    ensures |d| < |conns| ==> conns[|d|] in fails
  {
    if conns == [] || conns[0] in fails then [] else [conns[0]] + Delivered(conns[1..], fails)
  }

  /** The send loop of `broadcast_player_info`: `conns` in order, until the first failing send. */
  method SendToAll(conns: seq<ConnId>, fails: set<ConnId>) returns (sent: seq<ConnId>)
    ensures sent == Delivered(conns, fails)
  {
    var i := 0;
    while i < |conns| && conns[i] !in fails
      invariant 0 <= i <= |conns|
      invariant forall j :: 0 <= j < i ==> conns[j] !in fails
    {
      i := i + 1;
    }
    DeliveredIsFirstFailure(conns, fails, i);
    sent := conns[..i];
  }

  /** The document sent and the connections it reached. */
  datatype Broadcast = Broadcast(document: Value, delivered: seq<ConnId>)

  // ---------------------------------------------------------------------------
  // Insertion-ordered keys, as a Python dict keeps them.

  predicate Distinct(keys: seq<int>) {
    forall i, j :: 0 <= i < j < |keys| ==> keys[i] != keys[j]
  }

  /** The key order after `PLAYERS[k] = v`: an existing key keeps its place, a new one goes last. */
  function Upsert(keys: seq<int>, k: int): (r: seq<int>)
    ensures forall x :: x in r <==> x in keys || x == k
    ensures Distinct(keys) ==> Distinct(r)
    ensures k in keys ==> r == keys
    ensures k !in keys ==> r == keys + [k]
  {
    if k in keys then keys else keys + [k]
  }

  /** The key order after `del PLAYERS[k]`: the others keep their relative order. */
  function Remove(keys: seq<int>, k: int): (r: seq<int>)
    ensures forall x :: x in r <==> x in keys && x != k
    ensures Distinct(keys) ==> Distinct(r)
    ensures |r| <= |keys|
  {
    if keys == [] then []
    else
      var tail := Remove(keys[1..], k);
      assert forall x :: x in keys[1..] ==> x in keys;
      assert Distinct(keys) ==> Distinct(keys[1..]) && keys[0] !in keys[1..];
      if keys[0] == k then tail else [keys[0]] + tail
  }

  /** Deleting a key that is present closes the gap it leaves: the others keep their order. */
  lemma {:induction false} RemoveKeepsOrder(keys: seq<int>, i: nat)
    requires Distinct(keys) && i < |keys|
    ensures Remove(keys, keys[i]) == keys[..i] + keys[i + 1..]
  {
    var k, tail := keys[i], keys[1..];
    assert Distinct(tail) by {
      forall a, b | 0 <= a < b < |tail|
        ensures tail[a] != tail[b]
      {
        assert tail[a] == keys[a + 1] && tail[b] == keys[b + 1];
      }
    }
    if i == 0 {
      assert k !in tail by {
        forall j | 0 <= j < |tail|
          ensures tail[j] != k
        {
          assert tail[j] == keys[j + 1];
        }
      }
      assert Remove(keys, k) == Remove(tail, k);
      RemoveAbsent(tail, k);
    } else {
      assert keys[0] != k;
      assert Remove(keys, k) == [keys[0]] + Remove(tail, k);
      assert tail[i - 1] == k;
      RemoveKeepsOrder(tail, i - 1);
      assert tail[..i - 1] == keys[1..i];
      assert tail[i..] == keys[i + 1..];
      assert keys[..i] == [keys[0]] + keys[1..i];
    }
  }

  /** Deleting an absent key changes nothing. */
  lemma {:induction false} RemoveAbsent(keys: seq<int>, k: int)
    requires k !in keys
    ensures Remove(keys, k) == keys
  {
    if keys != [] {
      assert forall x :: x in keys[1..] ==> x in keys;
      RemoveAbsent(keys[1..], k);
    }
  }

  /** What one `receive_msg` followed by `player_from_json` yields, as the handler's `try` sees it. */
  datatype Incoming =
    | Decoded(p: Player)  // a player record arrived
    | Undecodable  // json.JSONDecodeError: the loop reads again
    | Reset  // ConnectionResetError
    | Fatal  // an exception the handler does not catch (ValueError, KeyError, TypeError)

  function Classify(got: Framing.Received, parse: string -> Option<Value>, rng: SeededIndex): Incoming {
    match got
    case Failure(Closed) => Reset
    case Failure(BadLength) => Fatal
    case Success((msg, _)) =>
      match FromJson(parse, rng, msg)
      case Success(p) => Decoded(p)
      case Failure(JsonDecodeError) => Undecodable
      case Failure(_) => Fatal
  }

  /** A decoded player carries the colour of its id. */
  lemma ClassifyWellFormed(got: Framing.Received, parse: string -> Option<Value>, rng: SeededIndex)
    ensures Classify(got, parse, rng).Decoded? ==> WellFormed(rng, Classify(got, parse, rng).p)
  {
  }

  /** A record missing a field is the uncaught `KeyError`: the read ends the handler's loop and its thread. */
  lemma MissingFieldEndsThread(got: Framing.Received, parse: string -> Option<Value>, rng: SeededIndex,
                               fields: map<string, Value>, key: string)
    requires got.Success? && parse(got.value.0) == Some(Object(fields))
    requires key in WireKeys && key !in fields
    ensures Classify(got, parse, rng) == Fatal && !Continues(Classify(got, parse, rng))
  {
    MissingFieldFails(rng, fields, key);
  }

  /** Reads that keep the handler's loop going. */
  predicate Continues(incoming: Incoming) {
    incoming.Undecodable? || (incoming.Decoded? && incoming.p.inGame)
  }

  /** Everything a connection's stream yields, read by read, up to and including the failing read. */
  function Reads(stream: string, parse: string -> Option<Value>, rng: SeededIndex): (rs: seq<Incoming>)
    ensures |rs| >= 1 && !Continues(rs[|rs| - 1])
    decreases |stream|
  {
    var got := Framing.Receive(stream);
    if got.Success? then [Classify(got, parse, rng)] + Reads(got.value.1, parse, rng)
    else [Classify(got, parse, rng)]
  }

  /** The position of the read that ends the handler's loop: the first one that does not continue it. */
  function Stop(rs: seq<Incoming>): (n: nat)
    requires |rs| >= 1 && !Continues(rs[|rs| - 1])
    ensures n < |rs| && !Continues(rs[n])
    ensures forall i :: 0 <= i < n ==> Continues(rs[i])
  {
    if !Continues(rs[0]) then 0
    else
      var n := Stop(rs[1..]);
      assert forall i :: 1 <= i < n + 1 ==> rs[i] == rs[1..][i - 1];
      n + 1
  }

  /** The player data a handler holds after the reads `rs`, starting from `data`. */
  function LastData(rs: seq<Incoming>, data: Option<Player>): Option<Player> {
    if rs == [] then data
    else LastData(rs[1..], if rs[0].Decoded? then Some(rs[0].p) else data)
  }

  lemma {:induction false} LastDataSnoc(rs: seq<Incoming>, r: Incoming, data: Option<Player>)
    ensures LastData(rs + [r], data) == (if r.Decoded? then Some(r.p) else LastData(rs, data))
  {
    if rs != [] {
      assert (rs + [r])[1..] == rs[1..] + [r];
      LastDataSnoc(rs[1..], r, if rs[0].Decoded? then Some(rs[0].p) else data);
    }
  }

  /** One more read handled: the data held is that read's player, if it carries one. */
  lemma LastDataPrefix(rs: seq<Incoming>, n: nat, data: Option<Player>)
    requires n < |rs|
    ensures LastData(rs[..n + 1], data) == (if rs[n].Decoded? then Some(rs[n].p) else LastData(rs[..n], data))
  {
    assert rs[..n + 1] == rs[..n] + [rs[n]];
    LastDataSnoc(rs[..n], rs[n], data);
  }

  /** The id of the player held, if any. */
  function IdsOf(data: Option<Player>): (ks: set<int>)
    ensures data.Some? ==> ks == {data.value.id}
    ensures data.None? ==> ks == {}
  {
    if data.Some? then {data.value.id} else {}
  }

  /** The one key a read may write or delete, given the data the handler holds before it. */
  function Touched(incoming: Incoming, data: Option<Player>): set<int> {
    match incoming
    case Decoded(p) => {p.id}
    case Reset => IdsOf(data)
    case _ => {}
  }

  /** The ids a handler starting with `data` names in the reads `rs`: its own and every record's. */
  function Named(rs: seq<Incoming>, data: Option<Player>): set<int> {
    IdsOf(data) + set i | 0 <= i < |rs| && rs[i].Decoded? :: rs[i].p.id
  }

  /** Outside the keys `ks`, the registry maps `m1` and `m0` have the same keys and the same entries. */
  ghost predicate SameOutside(ks: set<int>, m0: map<int, OnlinePlayer>, m1: map<int, OnlinePlayer>) {
    forall k :: k !in ks ==> (k in m1 <==> k in m0) && (k in m1 ==> m1[k] == m0[k])
  }

  /** The data held after the reads `rs` is one the handler named. */
  lemma {:induction false} LastDataNamed(rs: seq<Incoming>, data: Option<Player>)
    ensures LastData(rs, data).Some? ==> LastData(rs, data).value.id in Named(rs, data)
  {
    if rs != [] {
      var next := if rs[0].Decoded? then Some(rs[0].p) else data;
      LastDataNamed(rs[1..], next);
      forall k | k in Named(rs[1..], next)
        ensures k in Named(rs, data)
      {
        if k !in IdsOf(next) {
          var i :| 0 <= i < |rs[1..]| && rs[1..][i].Decoded? && rs[1..][i].p.id == k;
          assert rs[i + 1] == rs[1..][i];
        }
      }
    }
  }

  /**
   * The registry outside the ids named in the first `n` reads is the one the
   * handler started with, and a read that touches only what it may keeps this
   * for the first `n + 1` reads.
   */
  lemma NamedStep(rs: seq<Incoming>, n: nat, data: Option<Player>,
                  m0: map<int, OnlinePlayer>, m1: map<int, OnlinePlayer>, m2: map<int, OnlinePlayer>)
    requires n < |rs|
    requires SameOutside(Named(rs[..n], data), m0, m1)
    requires SameOutside(Touched(rs[n], LastData(rs[..n], data)), m1, m2)
    ensures SameOutside(Named(rs[..n + 1], data), m0, m2)
  {
    LastDataNamed(rs[..n], data);
    assert forall i :: 0 <= i < n ==> rs[..n][i] == rs[..n + 1][i];
    assert rs[..n + 1][n] == rs[n];
    assert Named(rs[..n], data) <= Named(rs[..n + 1], data);
    assert Touched(rs[n], LastData(rs[..n], data)) <= Named(rs[..n + 1], data);
  }

  /** The client keeps one id: every player in `rs` has it, and so does `data` when set. */
  predicate OneId(data: Option<Player>, rs: seq<Incoming>) {
    && (forall i, j :: 0 <= i < |rs| && 0 <= j < |rs| && rs[i].Decoded? && rs[j].Decoded? ==>
          rs[i].p.id == rs[j].p.id)
    && (forall i :: 0 <= i < |rs| && rs[i].Decoded? && data.Some? ==> rs[i].p.id == data.value.id)
  }

  /** Reading on keeps one id: the read at `n` agrees with the data held, and so does the data held after it. */
  lemma OneIdStep(data: Option<Player>, rs: seq<Incoming>, n: nat)
    requires n < |rs| && OneId(data, rs)
    ensures OneId(data, [rs[n]])
    ensures OneId(if rs[n].Decoded? then Some(rs[n].p) else data, rs)
  {
  }

  /** Every element of `view` is set: then `Present` drops nothing. */
  lemma {:induction false} PresentOfAllSet(view: seq<Option<Player>>)
    requires forall i :: 0 <= i < |view| ==> view[i].Some?
    ensures |Present(view)| == |view|
    ensures forall i :: 0 <= i < |view| ==> Present(view)[i] == view[i].value
  {
    if view != [] {
      PresentOfAllSet(view[1..]);
    }
  }

  /** `main`'s next candidate after a failed bind: one up, wrapping past 65535 to 0. */
  function NextPort(port: int): (q: int)
    ensures 0 <= port <= Address.MaxPort ==> 0 <= q <= Address.MaxPort
    ensures 0 <= port <= Address.MaxPort ==> q == (port + 1) % (Address.MaxPort + 1)
  {
    if port + 1 > Address.MaxPort then 0 else port + 1
  }

  /** The port tried after `k` failed binds. */
  function Candidate(k: nat): int {
    if k == 0 then Address.DefaultPort else NextPort(Candidate(k - 1))
  }

  /** The scan visits the ports cyclically from the default port. */
  lemma {:induction false} CandidateIsCyclic(k: nat)
    ensures Candidate(k) == (Address.DefaultPort + k) % (Address.MaxPort + 1)
  {
    if k > 0 {
      CandidateIsCyclic(k - 1);
    }
  }

  /** Every port comes up within 65536 candidates. */
  lemma CandidateReaches(port: int)
    requires 0 <= port <= Address.MaxPort
    ensures var k := (port - Address.DefaultPort) % (Address.MaxPort + 1);
            k <= Address.MaxPort && Candidate(k) == port
  {
    CandidateIsCyclic((port - Address.DefaultPort) % (Address.MaxPort + 1));
  }

  /**
   * The bind loop of `main`: try the default port, and after each failed bind
   * the next candidate. `bindable` is the set of ports a bind would succeed on;
   * the source loops forever when it holds none, so that case is excluded.
   */
  method BindPort(bindable: set<int>) returns (port: int, failures: nat)
    requires exists p :: p in bindable && 0 <= p <= Address.MaxPort
    ensures port == Candidate(failures) && port in bindable
    ensures 0 <= port <= Address.MaxPort
    ensures forall k :: 0 <= k < failures ==> Candidate(k) !in bindable
  {
    ghost var target :| target in bindable && 0 <= target <= Address.MaxPort;
    ghost var reach := (target - Address.DefaultPort) % (Address.MaxPort + 1);
    CandidateReaches(target);
    port, failures := Address.DefaultPort, 0;
    while port !in bindable
      invariant port == Candidate(failures) && 0 <= port <= Address.MaxPort
      invariant failures <= reach
      invariant forall k :: 0 <= k < failures ==> Candidate(k) !in bindable
      decreases reach - failures
    {
      port := NextPort(port);
      failures := failures + 1;
    }
  }

  /** The `PLAYERS` dict: player id to connection entry, in insertion order. */
  class Registry {
    var order: seq<int>
    var entries: map<int, OnlinePlayer>

    ghost predicate Valid()
      reads this
    {
      && (forall k :: k in entries <==> k in order)
      && (forall i :: 0 <= i < |order| ==> order[i] in entries)
      && Distinct(order)
    }

    constructor ()
      ensures Valid() && order == [] && entries == map[]
    {
      order := [];
      entries := map[];
    }

    /** The player data of the entries at `keys`, read through their (possibly shared) objects. */
    function DataOf(keys: seq<int>): (v: seq<Option<Player>>)
      reads this, entries.Values
      requires forall i :: 0 <= i < |keys| ==> keys[i] in entries
      ensures |v| == |keys|
      ensures forall i :: 0 <= i < |keys| ==> v[i] == entries[keys[i]].playerData
    {
      if keys == [] then [] else [entries[keys[0]].playerData] + DataOf(keys[1..])
    }

    /** The connections of the entries at `keys`. */
    function ConnsOf(keys: seq<int>): (cs: seq<ConnId>)
      reads this
      requires forall i :: 0 <= i < |keys| ==> keys[i] in entries
      ensures |cs| == |keys|
      ensures forall i :: 0 <= i < |keys| ==> cs[i] == entries[keys[i]].conn
    {
      if keys == [] then [] else [entries[keys[0]].conn] + ConnsOf(keys[1..])
    }

    /** What `PLAYERS.values()` holds, in iteration order. */
    function View(): (v: seq<Option<Player>>)
      reads this, entries.Values
      requires Valid()
      ensures |v| == |order|
    {
      DataOf(order)
    }

    /** The connections of `PLAYERS.values()`, in iteration order. */
    function Connections(): (cs: seq<ConnId>)
      reads this
      requires Valid()
      ensures |cs| == |order|
      ensures forall i :: 0 <= i < |order| ==> cs[i] == entries[order[i]].conn
    {
      ConnsOf(order)
    }

    /**
     * Every entry is filed under its own player's id and is in game: what the
     * handlers keep true while each client sticks to one id.
     */
    ghost predicate Consistent()
      reads this, entries.Values
    {
      forall k :: k in entries ==>
        entries[k].playerData.Some? && entries[k].playerData.value.id == k &&
        entries[k].playerData.value.inGame
    }

    /** Every stored player carries the colour of its id, as decoding made it. */
    ghost predicate DataWellFormed(rng: SeededIndex)
      reads this, entries.Values
    {
      forall k :: k in entries && entries[k].playerData.Some? ==> WellFormed(rng, entries[k].playerData.value)
    }

    /** While consistent, the roster lists every entry, each in game and filed under its own id. */
    lemma ConsistentRoster()
      requires Valid() && Consistent()
      ensures |Present(View())| == |order|
      ensures forall i :: 0 <= i < |order| ==> Present(View())[i].id == order[i] && Present(View())[i].inGame
    {
      var view := View();
      assert forall i :: 0 <= i < |view| ==> order[i] in entries && view[i] == entries[order[i]].playerData;
      PresentOfAllSet(view);
    }

    /** `json_dumps_players()`: the records of the entries with player data, in order. */
    method JsonDumpsPlayers() returns (doc: Value)
      requires Valid()
      ensures doc == PlayersDocument(View())
    {
      ghost var view := View();
      var players: seq<Value> := [];
      var i := 0;
      while i < |order|
        invariant 0 <= i <= |order|
        invariant players == Records(view[..i])
      {
        var op := entries[order[i]];
        assert op.playerData == view[i];
        if op.playerData.Some? {
          players := players + [Object(op.AsDict())];
        }
        RecordsSnoc(view, i);
        i := i + 1;
      }
      assert view[..|order|] == view;
      doc := Object(map["players" := List(players)]);
    }

    /**
     * `broadcast_player_info()`: one document, sent to the entries'
     * connections in order; the first reset or aborted send ends the loop.
     */
    method BroadcastPlayerInfo(fails: set<ConnId>) returns (b: Broadcast)
      requires Valid()
      ensures b.document == PlayersDocument(View())
      ensures b.delivered == Delivered(Connections(), fails)
    {
      var doc := JsonDumpsPlayers();
      var sent := SendToAll(Connections(), fails);
      b := Broadcast(doc, sent);
    }

    /** `PLAYERS[id] = op`. */
    method Assign(id: int, op: OnlinePlayer, ghost rng: SeededIndex)
      requires Valid()
      modifies this
      ensures Valid()
      ensures entries == old(entries)[id := op] && order == Upsert(old(order), id)
      ensures old(ConsistentBut(id)) && op.playerData.Some? && op.playerData.value.id == id &&
                op.playerData.value.inGame ==>
                Consistent()
      ensures old(DataWellFormed(rng)) && (op.playerData.Some? ==> WellFormed(rng, op.playerData.value)) ==>
                DataWellFormed(rng)
    {
      order := Upsert(order, id);
      entries := entries[id := op];
    }

    /** `del PLAYERS[id]`; `removed` is false where Python raises KeyError, and nothing changes then. */
    method Delete(id: int, ghost rng: SeededIndex) returns (removed: bool)
      requires Valid()
      modifies this
      ensures Valid()
      ensures old(ConsistentBut(id)) ==> Consistent()
      ensures old(DataWellFormed(rng)) ==> DataWellFormed(rng)
      ensures removed == (id in old(entries))
      ensures removed ==> entries == old(entries) - {id} && order == Remove(old(order), id)
      ensures !removed ==> entries == old(entries) && order == old(order)
    {
      removed := id in entries;
      if removed {
        order := Remove(order, id);
        entries := entries - {id};
      }
    }

    /**
     * One pass of the `while True` loop of `read_data_thread_function`, after
     * the read: update or drop the entry and broadcast, as the read dictates.
     */
    method HandleRead(op: OnlinePlayer, incoming: Incoming, fails: set<ConnId>, ghost rng: SeededIndex)
      returns (status: Status, b: Option<Broadcast>)
      requires Valid()
      modifies this, op
      ensures Valid()
      ensures b.Some? ==> b.value == Broadcast(PlayersDocument(View()), Delivered(Connections(), fails))
      ensures status == Reading <==> Continues(incoming)
      ensures incoming.Decoded? ==> op.playerData == Some(incoming.p)
      ensures !incoming.Decoded? ==> op.playerData == old(op.playerData)
      ensures old(Consistent()) && OneId(old(op.playerData), [incoming]) ==> Consistent()
      ensures Outcome(incoming, old(op.playerData), op, status, b, old(entries), old(order))
      ensures SameOutside(Touched(incoming, old(op.playerData)), old(entries), entries)
      ensures status == Exited ==> op.playerData.None? || op.playerData.value.id !in entries
      ensures old(DataWellFormed(rng)) && (incoming.Decoded? ==> WellFormed(rng, incoming.p)) ==>
                DataWellFormed(rng)
    {
      ghost var data := op.playerData;
      ghost var entries0, order0 := entries, order;
      match incoming {
        case Undecodable =>
          status, b := Reading, None;
        case Fatal =>
          status, b := Crashed, None;
        case Reset =>
          status, b := HandleReset(op, fails, rng);
        case Decoded(p) =>
          assert [incoming][0] == incoming;
          status, b := HandlePlayer(op, p, fails, rng);
      }
      OutcomeFrame(incoming, data, op, status, b, entries0, order0);
    }

    /** The registry after a player record: upserted while in game, otherwise deleted (KeyError if absent). */
    ghost predicate PlayerOutcome(p: Player, op: OnlinePlayer, status: Status, b: Option<Broadcast>,
                                  entries0: map<int, OnlinePlayer>, order0: seq<int>)
      reads this
    {
      if p.inGame then
        status == Reading && b.Some? && entries == entries0[p.id := op] && order == Upsert(order0, p.id)
      else if p.id in entries0 then
        status == Exited && b.Some? && entries == entries0 - {p.id} && order == Remove(order0, p.id)
      else
        status == Crashed && b.None? && entries == entries0 && order == order0
    }

    /** The registry after a reset: the handler's id deleted if it ever had one (KeyError if absent). */
    ghost predicate ResetOutcome(data: Option<Player>, status: Status, b: Option<Broadcast>,
                                 entries0: map<int, OnlinePlayer>, order0: seq<int>)
      reads this
    {
      if data.None? then
        status == Exited && b.Some? && entries == entries0 && order == order0
      else if data.value.id in entries0 then
        status == Exited && b.Some? && entries == entries0 - {data.value.id} &&
        order == Remove(order0, data.value.id)
      else
        status == Crashed && b.None? && entries == entries0 && order == order0
    }

    /** The registry after one read of any kind, given the data the handler held before it. */
    ghost predicate Outcome(incoming: Incoming, data: Option<Player>, op: OnlinePlayer, status: Status,
                            b: Option<Broadcast>, entries0: map<int, OnlinePlayer>, order0: seq<int>)
      reads this
    {
      match incoming
      case Undecodable => status == Reading && b.None? && entries == entries0 && order == order0
      case Fatal => status == Crashed && b.None? && entries == entries0 && order == order0
      case Reset => ResetOutcome(data, status, b, entries0, order0)
      case Decoded(p) => PlayerOutcome(p, op, status, b, entries0, order0)
    }

    /** A read changes the registry at most under the key it touches. */
    lemma OutcomeFrame(incoming: Incoming, data: Option<Player>, op: OnlinePlayer, status: Status,
                       b: Option<Broadcast>, entries0: map<int, OnlinePlayer>, order0: seq<int>)
      requires Outcome(incoming, data, op, status, b, entries0, order0)
      ensures SameOutside(Touched(incoming, data), entries0, entries)
    {
    }

    /** Every entry other than the one under `id` is filed under its own player's id and is in game. */
    ghost predicate ConsistentBut(id: int)
      reads this, entries.Values
    {
      forall k :: k in entries && k != id ==>
        entries[k].playerData.Some? && entries[k].playerData.value.id == k &&
        entries[k].playerData.value.inGame
    }

    /** The `except ConnectionResetError` branch. */
    method HandleReset(op: OnlinePlayer, fails: set<ConnId>, ghost rng: SeededIndex)
      returns (status: Status, b: Option<Broadcast>)
      requires Valid()
      modifies this
      ensures Valid()
      ensures b.Some? ==> b.value == Broadcast(PlayersDocument(View()), Delivered(Connections(), fails))
      ensures status != Reading
      ensures ResetOutcome(op.playerData, status, b, old(entries), old(order))
      ensures old(Consistent()) ==> Consistent()
      ensures old(DataWellFormed(rng)) ==> DataWellFormed(rng)
    {
      if op.playerData.None? {
        var sent := BroadcastPlayerInfo(fails);
        return Exited, Some(sent);
      }
      status, b := LeaveGame(op.playerData.value.id, fails, rng);
    }

    /** `online_player.player_data = ...` followed by the in-game / out-of-game branch. */
    method HandlePlayer(op: OnlinePlayer, p: Player, fails: set<ConnId>, ghost rng: SeededIndex)
      returns (status: Status, b: Option<Broadcast>)
      requires Valid()
      modifies this, op
      ensures Valid()
      ensures b.Some? ==> b.value == Broadcast(PlayersDocument(View()), Delivered(Connections(), fails))
      ensures op.playerData == Some(p)
      ensures PlayerOutcome(p, op, status, b, old(entries), old(order))
      ensures old(Consistent()) && (old(op.playerData).Some? ==> p.id == old(op.playerData).value.id) ==>
                Consistent()
      ensures old(DataWellFormed(rng)) && WellFormed(rng, p) ==> DataWellFormed(rng)
    {
      ghost var keeps := Consistent() && (op.playerData.Some? ==> p.id == op.playerData.value.id);
      ghost var data0 := map k | k in entries :: entries[k].playerData;
      ghost var formed := DataWellFormed(rng);
      if keeps {
        // Only the key `p.id` can have held `op`.
        assert forall k :: k in entries && k != p.id ==> entries[k] != op;
      }
      op.playerData := Some(p);
      if keeps {
        StoredPlayerConsistent(op, p, data0);
      }
      if formed && WellFormed(rng, p) {
        StoredPlayerWellFormed(op, p, data0, rng);
      }
      if p.inGame {
        status, b := JoinGame(op, p, fails, rng);
      } else {
        status, b := LeaveGame(p.id, fails, rng);
      }
    }

    /** Storing `p` on `op`, held by no key but `p.id`, keeps every other entry consistent. */
    lemma StoredPlayerConsistent(op: OnlinePlayer, p: Player, data0: map<int, Option<Player>>)
      requires op.playerData == Some(p)
      requires forall k :: k in entries && entries[k] != op ==> k in data0 && entries[k].playerData == data0[k]
      requires forall k :: k in entries && k != p.id ==> entries[k] != op
      requires forall k :: k in data0 ==> data0[k].Some? && data0[k].value.id == k && data0[k].value.inGame
      ensures ConsistentBut(p.id)
    {
    }

    /** Storing a well-formed player on `op` keeps every stored player well-formed. */
    lemma StoredPlayerWellFormed(op: OnlinePlayer, p: Player, data0: map<int, Option<Player>>, rng: SeededIndex)
      requires op.playerData == Some(p)
      requires forall k :: k in entries && entries[k] != op ==> k in data0 && entries[k].playerData == data0[k]
      requires forall k :: k in data0 && data0[k].Some? ==> WellFormed(rng, data0[k].value)
      requires WellFormed(rng, p)
      ensures DataWellFormed(rng)
    {
    }

    /** `PLAYERS[id] = online_player` and a broadcast, for a player in game. */
    method JoinGame(op: OnlinePlayer, p: Player, fails: set<ConnId>, ghost rng: SeededIndex)
      returns (status: Status, b: Option<Broadcast>)
      requires Valid() && op.playerData == Some(p) && p.inGame
      modifies this
      ensures Valid()
      ensures b.Some? ==> b.value == Broadcast(PlayersDocument(View()), Delivered(Connections(), fails))
      ensures status == Reading && b.Some?
      ensures entries == old(entries)[p.id := op] && order == Upsert(old(order), p.id)
      ensures old(ConsistentBut(p.id)) ==> Consistent()
      ensures old(DataWellFormed(rng)) && WellFormed(rng, p) ==> DataWellFormed(rng)
    {
      Assign(p.id, op, rng);
      var sent := BroadcastPlayerInfo(fails);
      return Reading, Some(sent);
    }

    /** `del PLAYERS[id]` and a broadcast; the KeyError of an absent id ends the thread instead. */
    method LeaveGame(id: int, fails: set<ConnId>, ghost rng: SeededIndex)
      returns (status: Status, b: Option<Broadcast>)
      requires Valid()
      modifies this
      ensures Valid()
      ensures b.Some? ==> b.value == Broadcast(PlayersDocument(View()), Delivered(Connections(), fails))
      ensures id in old(entries) ==>
                status == Exited && b.Some? && entries == old(entries) - {id} && order == Remove(old(order), id)
      ensures id !in old(entries) ==> status == Crashed && b.None? && entries == old(entries) && order == old(order)
      ensures old(ConsistentBut(id)) ==> Consistent()
      ensures old(DataWellFormed(rng)) ==> DataWellFormed(rng)
    {
      var removed := Delete(id, rng);
      if !removed {
        return Crashed, None;
      }
      var sent := BroadcastPlayerInfo(fails);
      return Exited, Some(sent);
    }

    /**
     * `read_data_thread_function`: read and handle until the handler returns
     * or an exception ends its thread. Returns how many reads it handled; the
     * broadcast of each read is the one `ReadOnce` describes.
     */
    method ReadDataThreadFunction(op: OnlinePlayer, stream: string, parse: string -> Option<Value>,
                                  rng: SeededIndex, fails: set<ConnId>)
      returns (status: Status, handled: nat)
      requires Valid()
      modifies this, op
      ensures Valid() && status != Reading
      ensures handled == Stop(Reads(stream, parse, rng)) + 1
      ensures op.playerData == LastData(Reads(stream, parse, rng)[..handled], old(op.playerData))
      ensures old(Consistent()) && OneId(old(op.playerData), Reads(stream, parse, rng)[..handled]) ==> Consistent()
      ensures old(DataWellFormed(rng)) ==> DataWellFormed(rng)
      ensures status == Exited ==> op.playerData.None? || op.playerData.value.id !in entries
      ensures SameOutside(Named(Reads(stream, parse, rng)[..handled], old(op.playerData)), old(entries), entries)
    {
      ghost var all := Reads(stream, parse, rng);
      ghost var data0 := op.playerData;
      ghost var entries0 := entries;
      ghost var done := all[..Stop(all) + 1];
      ghost var keeps := Consistent() && OneId(op.playerData, done);
      ghost var formed := DataWellFormed(rng);
      assert all[..0] == [] && all[0..] == all;
      var rest;
      status, handled, rest := ReadLoop(op, stream, parse, rng, fails, all, done, data0, entries0, keeps, formed);
    }

    /** The `while True` loop of `read_data_thread_function`, from the first read to the one that ends it. */
    method ReadLoop(op: OnlinePlayer, stream: string, parse: string -> Option<Value>, rng: SeededIndex,
                    fails: set<ConnId>, ghost all: seq<Incoming>, ghost done: seq<Incoming>,
                    ghost data0: Option<Player>, ghost entries0: map<int, OnlinePlayer>,
                    ghost keeps: bool, ghost formed: bool)
      returns (status: Status, handled: nat, rest: string)
      requires ThreadInv(op, all, done, data0, entries0, keeps, formed, Reading, 0, stream, parse, rng)
      modifies this, op
      ensures status != Reading
      ensures ThreadInv(op, all, done, data0, entries0, keeps, formed, status, handled, rest, parse, rng)
    {
      rest := stream;
      status, handled := Reading, 0;
      while status == Reading
        invariant ThreadInv(op, all, done, data0, entries0, keeps, formed, status, handled, rest, parse, rng)
        decreases |rest|, if status == Reading then 1 else 0
      {
        status, rest := ReadStep(op, rest, parse, rng, fails, all, done, data0, entries0, keeps, formed, handled);
        handled := handled + 1;
      }
    }

    /**
     * What holds after `handled` passes of the handler's loop over the reads
     * `all` of its stream, `rest` being the stream left unread.
     */
    ghost predicate ThreadInv(op: OnlinePlayer, all: seq<Incoming>, done: seq<Incoming>, data0: Option<Player>,
                              entries0: map<int, OnlinePlayer>, keeps: bool, formed: bool, status: Status, handled: nat, rest: string,
                              parse: string -> Option<Value>, rng: SeededIndex)
      reads this, op, entries.Values
    {
      && |all| >= 1 && !Continues(all[|all| - 1])
      && Valid()
      && handled <= |all|
      && (status == Reading ==> handled <= Stop(all) && all[handled..] == Reads(rest, parse, rng))
      && (status != Reading ==> handled == Stop(all) + 1)
      && op.playerData == LastData(all[..handled], data0)
      && done == all[..Stop(all) + 1]
      && (keeps ==> Consistent() && OneId(op.playerData, done))
      && (formed ==> DataWellFormed(rng))
      && (status == Exited ==> op.playerData.None? || op.playerData.value.id !in entries)
      && SameOutside(Named(all[..handled], data0), entries0, entries)
    }

    /** One pass of the handler's loop keeps `ThreadInv`, one read further along. */
    method ReadStep(op: OnlinePlayer, rest: string, parse: string -> Option<Value>, rng: SeededIndex,
                    fails: set<ConnId>, ghost all: seq<Incoming>, ghost done: seq<Incoming>,
                    ghost data0: Option<Player>,
                    ghost entries0: map<int, OnlinePlayer>, ghost keeps: bool, ghost formed: bool, ghost handled: nat)
      returns (status: Status, next: string)
      requires ThreadInv(op, all, done, data0, entries0, keeps, formed, Reading, handled, rest, parse, rng)
      modifies this, op
      ensures ThreadInv(op, all, done, data0, entries0, keeps, formed, status, handled + 1, next, parse, rng)
      ensures |next| <= |rest| && (status == Reading ==> |next| < |rest|)
    {
      var got := Framing.ReceiveMsg(rest);
      assert ThreadInv(op, all, done, data0, entries0, keeps, formed, Reading, handled, rest, parse, rng);
      ghost var before := op.playerData;
      ghost var entries1 := entries;
      var incoming, b;
      incoming, status, b, next := ReadOnce(op, rest, got, parse, rng, fails);
      ReadsAdvance(all, handled, rest, next, parse, rng, status == Reading);
      if keeps {
        assert done[handled] == all[handled];
        OneIdStep(before, done, handled);
      }
      LastDataPrefix(all, handled, data0);
      NamedStep(all, handled, data0, entries0, entries1, entries);
    }

    /**
     * One pass of the loop after `receive_msg` returned `got` from the stream
     * `rest`: `player_from_json`, then the handling of the outcome.
     */
    method ReadOnce(op: OnlinePlayer, rest: string, got: Framing.Received, parse: string -> Option<Value>,
                    rng: SeededIndex, fails: set<ConnId>)
      returns (incoming: Incoming, status: Status, b: Option<Broadcast>, next: string)
      requires Valid() && got == Framing.Receive(rest)
      modifies this, op
      ensures Valid()
      ensures b.Some? ==> b.value == Broadcast(PlayersDocument(View()), Delivered(Connections(), fails))
      ensures incoming == Reads(rest, parse, rng)[0]
      ensures status == Reading <==> Continues(incoming)
      ensures |next| <= |rest|
      ensures status == Reading ==> |next| < |rest| && Reads(rest, parse, rng)[1..] == Reads(next, parse, rng)
      ensures op.playerData == if incoming.Decoded? then Some(incoming.p) else old(op.playerData)
      ensures old(Consistent()) && OneId(old(op.playerData), [incoming]) ==> Consistent()
      ensures old(DataWellFormed(rng)) ==> DataWellFormed(rng)
      ensures status == Exited ==> op.playerData.None? || op.playerData.value.id !in entries
      ensures Outcome(incoming, old(op.playerData), op, status, b, old(entries), old(order))
      ensures SameOutside(Touched(incoming, old(op.playerData)), old(entries), entries)
    {
      ReadsStep(rest, parse, rng);
      incoming := Classify(got, parse, rng);
      ClassifyWellFormed(got, parse, rng);
      status, b := HandleRead(op, incoming, fails, rng);
      next := if got.Success? then got.value.1 else rest;
    }
  }

  /** The loop's bookkeeping: the read handled is `rs[n]`, and the loop stops exactly at `Stop(rs)`. */
  lemma ReadsAdvance(rs: seq<Incoming>, n: nat, rest: string, next: string,
                     parse: string -> Option<Value>, rng: SeededIndex, reading: bool)
    requires |rs| >= 1 && !Continues(rs[|rs| - 1])
    requires n <= Stop(rs) && rs[n..] == Reads(rest, parse, rng)
    requires reading <==> Continues(Reads(rest, parse, rng)[0])
    requires reading ==> Reads(rest, parse, rng)[1..] == Reads(next, parse, rng)
    ensures rs[n] == Reads(rest, parse, rng)[0]
    ensures reading ==> n + 1 <= Stop(rs) && rs[n + 1..] == Reads(next, parse, rng)
    ensures !reading ==> n == Stop(rs)
  {
    assert rs[n..][0] == rs[n];
    assert rs[n..][1..] == rs[n + 1..];
  }

  /** One read of the stream: the first element of `Reads`, and the reads after it. */
  lemma ReadsStep(stream: string, parse: string -> Option<Value>, rng: SeededIndex)
    ensures Reads(stream, parse, rng)[0] == Classify(Framing.Receive(stream), parse, rng)
    ensures Framing.Receive(stream).Success? ==>
              Reads(stream, parse, rng)[1..] == Reads(Framing.Receive(stream).value.1, parse, rng)
    ensures Framing.Receive(stream).Failure? ==> |Reads(stream, parse, rng)| == 1
  {
  }

  /** Where a handler stands: still in its loop, returned, or ended by an uncaught exception. */
  datatype Status = Reading | Exited | Crashed

  /** A prefix free of failing connections that stops at a failing one (or the end) is the delivered one. */
  lemma DeliveredIsFirstFailure(conns: seq<ConnId>, fails: set<ConnId>, n: nat)
    requires n <= |conns|
    requires forall j :: 0 <= j < n ==> conns[j] !in fails
    requires n < |conns| ==> conns[n] in fails
    ensures Delivered(conns, fails) == conns[..n]
  {
  }
}

=== FILE: wrappers.dfy ===
/** Option and Result, used for the source's None values and exceptions. */
module Wrappers {

  datatype Option<+T> = None | Some(value: T)

  datatype Result<+R, +E> = Success(value: R) | Failure(error: E)
}
